=== FILE: README.md ===
# HyperPower core, modelled in Dafny

HyperPower tunes the hyper-parameters of a Keras network under hardware
constraints. The user marks each tunable value in the network definition
with an embedded declaration `HYPERPARAM{"token": ..., "type": ..., ...}`.
Setup reads those declarations and writes three things:

- a search-space description (the Spearmint `config.json` text);
- a table of declarations, keyed by token;
- a template, in which each declaration has become the placeholder
  `HYPERPARAM_<token>`.

For every trial the optimiser suggests values. The trial then:

1. transforms each value as its declaration asks (`X<n>`, `LOG<n>`,
   `NEGEXP<b>`);
2. substitutes the values into the template;
3. trains and/or profiles the resulting network;
4. reports either the classification error, or a keyed report of the
   objective and the constraint margin.

The model covers this pipeline as pure functions over immutable data.

| module | models |
|---|---|
| `Wrappers` | `Option` and `Result` |
| `Protocol` | the marker, the placeholder, the declaration record `Decl`, every fatal error (`Fault`) |
| `Text` | Python's `str.replace(old, new, 1)`, `split` unpacked into two parts, line-wise regular-expression search |
| `Numbers` | `int()` and `float()` on an optional sign followed by digits, with at most one decimal point for `float()`, and exact integer powers |
| `Setup` | `hyperpower_params`: choosing the execution mode |
| `Extraction` | `spearmint_generate_cfg`: declarations, token table and config text |
| `Templating` | the template loop of `spearmint_params` |
| `Transforms` | the per-value transforms of `generate_keras_executable` |
| `Instantiation` | `generate_keras_executable`: transform, then substitute |
| `Objective` | `keras_run`: the trial's answer |

Behaviour modelled exactly as the code does it:

- **Dropping the last character.** The config builder drops the last
  character of the buffer before appending the closing text. When no INT or
  FLOAT declaration contributed an entry, that character is the header's
  `{` and not a comma. `Extraction.GenerateConfigText` states both cases.
- **Placeholders are matched as plain text.** A placeholder can match
  inside a longer one whose token extends its own name (`lr` against
  `lr_decay`). `Instantiation.PrefixCollision` states what happens then.
- **Unknown constraint metric.** With error optimised and a constraint
  name other than energy, power or runtime, the trial still trains: in
  Python 2, `None >= x` is false. It then fails computing the margin
  (`UnknownConstraintMetric`).
- **Equal report keys.** When the two keys of a report coincide, the later
  entry (the constraint) wins, as in a Python dict literal.

Where the code and its own comments read differently, the model follows
the code:

- **A zero margin is a violation.** The comment at hyperpower.py:159 says
  the trial checks whether the hardware constraint is satisfied. The test
  at hyperpower.py:169 is `>=`, so a measurement equal to the threshold
  takes the branch commented "HW constraint violated" (hyperpower.py:170).
  That branch skips training and reports NaN with a margin of 0.
  `Objective.TrainedIffMarginPositive` states the rule the code applies:
  train iff the margin is strictly positive.
- **LOG takes a logarithm.** The comment at hyperpower.py:30-31 describes
  what the optimiser's number stands for: value 2 under `LOG10` stands for
  100. Line 34 computes `math.log(value, base)`, the logarithm of the
  suggested value. `Transforms.ApplyTransform` models line 34.
- **Substitution is not checked.** hyperpower.py:46-47 replaces the first
  occurrence of each placeholder and checks nothing afterwards. A missing
  placeholder leaves the template unchanged
  (`Instantiation.SubstituteWithoutPlaceholders`). A placeholder whose
  name is a prefix of a longer one is replaced inside the longer name
  (`Instantiation.PrefixCollision`).

## Model

| member | source | states |
|---|---|---|
| Protocol.Placeholder | hyperpower.py:47 | The placeholder of a token is the marker, an underscore, then the token name, with exactly that length. |
| Setup.HyperpowerParams | gener_experiment.py:79-99 | Setup succeeds iff error is optimised or a constraint is given, and every constraint has a threshold. Otherwise it fails with exactly the matching error. Without a constraint the mode is unconstrained with an empty constraint name; with one it is constrained and the name and threshold are kept. |
| Setup.HyperpowerParamsConsistent | gener_experiment.py:79-99 | Accepted settings are consistent: unconstrained means error is optimised with no constraint or threshold, and constrained mode always has a threshold. |
| Text.ReplaceFirst | hyperpower.py:47 | Replace-once leaves text without the pattern unchanged. Otherwise it splices the replacement in at the leftmost occurrence and keeps both sides. |
| Text.ReplaceAt | hyperpower.py:47 | When the leftmost occurrence of the pattern starts right after `head`, the result is `head + rep + tail`. |
| Text.ReplaceFirstAtFind | gener_experiment.py:219 | Replace-once agrees with a left-to-right search: it leaves the text unchanged when the search finds nothing, and otherwise splices at the found index. |
| Text.SplitOnce | gener_experiment.py:157 | Unpacking a split into two parts succeeds iff the separator occurs exactly once. The two parts rebuild the line around the separator, and neither contains it. |
| Text.FindFromSuffix | gener_experiment.py:157 | Searching from an index finds the separator iff the text from that index contains it, which is how the second occurrence is detected. |
| Text.NothingBeforeFirst | gener_experiment.py:157 | The text before the leftmost occurrence of the separator does not contain it. |
| Text.JoinSplitLines | gener_experiment.py:150-151 | The lines searched by the pattern partition the source: joining them with newlines gives back the source. |
| Text.SplitLines | gener_experiment.py:150-154 | The text is searched line by line: there is at least one line, and no line contains a newline. |
| Text.SplitLinesSingle | gener_experiment.py:150-151 | Text without a newline is a single line. |
| Text.SplitLinesCons | gener_experiment.py:150-151 | A newline-free line followed by a newline and more text splits into that line followed by the lines of the rest. |
| Text.SplitJoinLines | gener_experiment.py:150-151 | Joining newline-free lines with newlines and splitting the result gives back the lines. |
| Text.LinesWith | gener_experiment.py:150-151 | The line-wise search keeps exactly the lines that contain the marker, and never more lines than the source has. |
| Text.LinesWithOne | gener_experiment.py:150-151 | A single line is kept iff it contains the marker. |
| Text.LinesWithAppend | gener_experiment.py:150-151 | The search is a filter. Searching two blocks of lines gives the first block's matches followed by the second's, so order and repeated lines are kept. |
| Text.ReplaceAtBefore | hyperpower.py:47 | When the leftmost occurrence starts right after `head`, replace-once splices in the replacement and keeps the three parts after it. |
| Extraction.DeclarationLines | gener_experiment.py:150-151 | The marked lines are exactly the source lines containing the marker. |
| Extraction.DeclarationLinesAround | gener_experiment.py:150-151 | Around any one source line, the marked lines are the matches before it, then the line itself iff it carries the marker, then the matches after it. |
| Extraction.RepeatedLineRejected | gener_experiment.py:150-164 | A marked line that occurs twice in the source is found twice and declares its token twice, so generation fails. |
| Extraction.Declare | gener_experiment.py:157-158 | A decoded declaration is what the parser gives for its payload. A failure is a malformed line or an unreadable payload. |
| Extraction.DeclareSplitsLine | gener_experiment.py:157 | An accepted line is some marker-free prefix, the marker, then the payload. A line without the marker is malformed, and so is a line with a second marker after the first. |
| Extraction.DeclareAccepts | gener_experiment.py:157-158 | A marker-free prefix, the marker and a marker-free payload decode to that payload and the parser's declaration; if the parser rejects the payload, the error is an unreadable payload naming it. |
| Extraction.MarkerFirstAfter | gener_experiment.py:157 | After a marker-free prefix, the marker that follows is its leftmost occurrence. |
| Extraction.TwoDeclarations | gener_experiment.py:150-167 | A source of two marked lines with bounded declarations and different tokens generates successfully: tokens 1 and 2 hold the two names and payloads in source order, and the table maps each token to its declaration. |
| Extraction.TwoMarkedLines | gener_experiment.py:150-151 | Two newline-free lines that both carry the marker are both found, in source order. |
| Extraction.Header | gener_experiment.py:139-147 | The header starts with the preamble naming the experiment `hyperpower-<prefix>` and ends with the opening of the variables section, whose last character is `{`. The likelihood hint stands between them iff the mode is unconstrained. |
| Extraction.Closing | gener_experiment.py:180-191 | The closing starts with `}` and ends with `}}`. It is exactly `}}` iff the mode is unconstrained. In constrained mode it opens the tasks section and names the optimised metric as OBJECTIVE, then the constraint metric as CONSTRAINT. |
| Extraction.Entry | gener_experiment.py:170-175 | Only INT and FLOAT declarations contribute a variable entry. The entry is the quoted token, the declared type with size 1, the rendered min and max (`%d` for INT, `%f` for FLOAT), then `},`. |
| Extraction.Variables | gener_experiment.py:169-175 | The variables section is empty iff no declaration is INT or FLOAT; otherwise it ends with a comma. |
| Extraction.GenerateConfig | gener_experiment.py:150-167 | Generation fails with `NoHyperparameters` iff no source line contains the marker. On success there is one token per marked line. |
| Extraction.Register | gener_experiment.py:156-175 | Registration either fails with one of the per-line errors, or adds one token per line and keeps every earlier declaration key. |
| Extraction.GenerateConfigSucceeds | gener_experiment.py:156-167 | Generation succeeds iff there is a marked line, every marked line decodes with bounds, and no token is declared twice. The tokens are then numbered in source order, each with its name and payload, and every declaration is stored under its token. |
| Extraction.GenerateConfigText | gener_experiment.py:139-191 | The config is the header, then the variable entries without their final comma, then the closing text for the mode. When there are no entries, the header loses its last character instead. |
| Extraction.GenerateConfigFrame | gener_experiment.py:139-191 | Whatever the declarations, the config starts with the header (less at most its last character) and ends with `}}` or the tasks section. |
| Extraction.DuplicateTokenRejected | gener_experiment.py:161-164 | Two marked lines declaring the same token make generation fail. |
| Extraction.DropLast | gener_experiment.py:190 | Dropping the last character of non-empty text leaves text that rebuilds it with that character; empty text stays empty. |
| Extraction.RegisterSucceeds | gener_experiment.py:156-175 | Registration succeeds iff every line decodes with bounds, the tokens are pairwise distinct, and none was registered before. |
| Extraction.RegisterConfig | gener_experiment.py:169-175 | Registration appends exactly the variable entries of the declarations to the config text. |
| Extraction.RegisterTokens | gener_experiment.py:166 | Registration appends one token entry per declaration, in order. |
| Extraction.RegisterRecords | gener_experiment.py:167 | Registration records every declaration under its token, keeps the earlier records, and adds no other key. |
| Numbers.ParseNat | hyperpower.py:27 | Parsing a natural succeeds iff the text is a non-empty string of digits. |
| Numbers.ParseNatText | hyperpower.py:27 | Parsing the decimal text of a natural gives it back. |
| Numbers.ParseIntText | hyperpower.py:133 | Parsing the decimal text of an integer, sign included, gives it back. |
| Numbers.ParseInt | hyperpower.py:133 | A parsed integer comes from non-empty text, and a negative one from text starting with a minus sign. |
| Numbers.ParseIntSyntax | hyperpower.py:133 | Integer parsing succeeds iff the text is an optional sign followed by at least one digit. The value is the digits' value, negated after a minus sign. |
| Numbers.ParseDecimal | hyperpower.py:138 | A parsed decimal comes from non-empty text, and a negative one from a minus sign. A leading plus sign reads as the text after it. On plain digit strings it agrees with the integer parser. |
| Numbers.PlusRead | hyperpower.py:138 | A plus sign before any text leaves its unsigned reading unchanged, as `float("+5")` is 5. |
| Numbers.ParseDecimalSyntax | hyperpower.py:138 | Decimal parsing succeeds iff the text is an optional sign followed by digits, or by digits around a single point with at least one digit in all. |
| Numbers.UnsignedDecimal | hyperpower.py:138 | An unsigned decimal is never negative, and a plain digit string reads as the natural number it writes. |
| Numbers.UnsignedDecimalSyntax | hyperpower.py:138 | Reading an unsigned decimal succeeds iff the text is non-empty digits, or digits around a single point with at least one digit in all. |
| Numbers.NonNumericFirstRejected | hyperpower.py:133-138 | Text whose first character is not a sign, a digit or a point is neither an integer nor a decimal. |
| Numbers.WordRejected | hyperpower.py:133-138 | The text `abc` is neither an integer nor a decimal. |
| Numbers.SecondPointRejected | hyperpower.py:138 | The text `1.2.3`, with two points, is not a decimal. |
| Numbers.PointAfterDigits | hyperpower.py:138 | In digits, a point, then more text, the point is found right after the digits. |
| Numbers.ParseDecimalFraction | hyperpower.py:138 | Digits, a point and digits parse to the whole part plus the fraction over the matching power of ten. A leading minus sign negates that value. |
| Numbers.DecimalExample | hyperpower.py:138 | The threshold text `50.5` reads as 50.5. |
| Numbers.SmallDecimalExample | hyperpower.py:138 | The text `0.001` reads as 0.001: leading zeros in the fraction count. |
| Numbers.PowInt | hyperpower.py:40 | A negative integer power is the reciprocal of the corresponding positive power. |
| Numbers.PowIntReciprocal | hyperpower.py:40 | For a non-zero base, the power to `-e` times the power to `e` is one. |
| Transforms.NegExp | hyperpower.py:38-40 | For an integral suggested value the power is exact. A zero base with a positive suggested value, which makes the exponent negative, is a math-domain error. For a non-integral suggested value the result is the numeric library's power of the base to the minus value, and it fails with a math-domain error exactly when the library has none. |
| Transforms.ApplyTransform | hyperpower.py:23-40 | Covers every transform code: none leaves the value alone; an empty code fails. `X<n>`, `LOG<n>` and `NEGEXP<b>` succeed iff their argument parses and the value has an element 0 (and, for LOG, the logarithm is defined). `X<n>` multiplies element 0, `LOG<n>` replaces it by its base-n logarithm and keeps the rest, and `NEGEXP<b>` yields the one-element list b to the minus value. Each failure names its cause: a bad argument, an empty value, or a math-domain error. Any other code leaves the value unchanged. |
| Transforms.Multiply | hyperpower.py:25-27 | `X<n>` fails on an unparseable argument, then on an empty value; otherwise it multiplies element 0 by n and keeps the rest. |
| Transforms.Logarithm | hyperpower.py:32-34 | `LOG<b>` fails on an unparseable base, then on an empty value, then outside the logarithm's domain; otherwise element 0 becomes its base-b logarithm and the rest is kept. |
| Transforms.NegativeExponent | hyperpower.py:38-40 | `NEGEXP<b>` fails on an unparseable base or an empty value; otherwise the list becomes the single power b to the minus element 0. |
| Transforms.MultiplierTransform | hyperpower.py:25-28 | `X<n>` multiplies element 0 of the value by `n` and keeps the rest. |
| Transforms.NegExpTransform | hyperpower.py:36-40 | `NEGEXP<b>` on an integral value `k` yields `[b^-k]`, the reciprocal of `b^k`. |
| Transforms.MultiplierExample | hyperpower.py:25 | `X50` turns 6 into 300. |
| Transforms.NegExpExample | hyperpower.py:36-37 | `NEGEXP10` turns 3 into 0.001, and 1 into 0.1. |
| Templating.BuildTemplate | gener_experiment.py:217-219 | A source in which no token's payload occurs is left unchanged, as is any source when there are no tokens. |
| Templating.BuildTemplateSnoc | gener_experiment.py:217-219 | The replacements run in token order: each token's replacement applies to the text the earlier ones left. |
| Templating.DeclarationBecomesPlaceholder | gener_experiment.py:218-219 | A declaration whose payload first occurs after its marker becomes the token's placeholder, with the surrounding text unchanged. |
| Instantiation.TransformOne | hyperpower.py:23-40 | A parameter with no declaration is an unknown-parameter error. Otherwise it gets its declared transform, keeping its name. |
| Instantiation.TransformAll | hyperpower.py:22-40 | Transforming succeeds iff every parameter does, and then yields each one's transform in order. A failure is the error of the first parameter that fails. |
| Instantiation.TransformAllKeepsNames | hyperpower.py:22-40 | Transformation keeps every parameter's name and position. |
| Instantiation.UntransformedUnchanged | hyperpower.py:23 | Parameters whose declarations name no transform pass through unchanged. |
| Instantiation.Substitute | hyperpower.py:46-47 | Substitution succeeds iff every value has an element 0; otherwise the error is an empty value. |
| Instantiation.SubstituteWithoutPlaceholders | hyperpower.py:46-47 | A template containing none of the parameters' placeholders comes back unchanged. |
| Instantiation.SubstituteSnoc | hyperpower.py:46-47 | Substitution runs binding by binding: the last binding is substituted into the text the earlier ones produced, and an earlier failure stands. |
| Instantiation.SubstituteHead | hyperpower.py:46-47 | The first binding is substituted before the rest. |
| Instantiation.SubstituteTwo | hyperpower.py:46-47 | Two placeholders, each leftmost when its turn comes, are replaced in order by the texts of their values; the text between and around them is kept. |
| Instantiation.SubstituteOne | hyperpower.py:47 | The leftmost placeholder of a parameter is replaced by the text of its element 0. |
| Instantiation.PrefixCollision | hyperpower.py:47 | When a longer placeholder extends the parameter's own, the value lands inside it: its text followed by the rest of the longer name. |
| Instantiation.GenerateExecutable | hyperpower.py:22-47 | Generation succeeds iff every suggested parameter is declared, transforms successfully, and keeps an element 0. A failure is the error of the first parameter that fails to transform, or an empty value once all have transformed. The text produced is the substitution of the transformed values. |
| Instantiation.GenerateUntransformed | hyperpower.py:22-47 | Without transforms, the executable is the plain substitution of the suggestion. |
| Instantiation.UnknownParameterAborts | hyperpower.py:23 | A suggested parameter without a declaration aborts the trial when every earlier parameter transformed successfully. |
| Instantiation.DeclarationToValue | gener_experiment.py:219 | The round trip of one declaration: template building followed by substitution puts the value's text exactly where the declaration stood. |
| Objective.ErrorPercent | hyperpower.py:147-148 | The error percentage determines the accuracy (accuracy = 1 - e/100). It lies in [0, 100] for accuracies in [0, 1] and is zero iff the accuracy is one. |
| Objective.Metric | hyperpower.py:162-167 | Energy, power and runtime select the measured energy, power and runtime respectively; any other name leaves the value unset. |
| Objective.HardwareConstraintRun | hyperpower.py:155-188 | Optimising error under an energy, power or runtime constraint, the trial succeeds. Its margin is the threshold minus that field of the profiled measurement, and the network is trained iff that field is below the threshold. |
| Objective.Pair | hyperpower.py:173-176 | The report has exactly the objective and constraint keys. The constraint key holds the margin, and the objective key holds the objective when the keys differ. |
| Objective.Threshold | hyperpower.py:136-138 | A missing threshold is an error. A present one succeeds iff its text parses as a decimal, and its value is then that decimal; otherwise the error names the text. |
| Objective.ThresholdWhole | hyperpower.py:138 | A whole-number threshold written in decimal reads as that number. |
| Objective.ThresholdFraction | hyperpower.py:138 | A threshold written with a fractional part, with or without a minus sign, reads as its decimal value. |
| Objective.ThresholdPlus | hyperpower.py:138 | A threshold with a leading plus sign is accepted iff the text after the sign reads as an unsigned decimal, and then has that value. |
| Objective.ConstrainedRun | hyperpower.py:153-211 | A constrained trial always profiles and reports exactly the objective and constraint keys. Optimising a hardware metric always trains: the constraint key holds the threshold minus the error, and a distinct objective key holds the measured metric. Optimising error fails iff the constraint names no metric. Otherwise the constraint key holds the threshold minus the measured metric, the network is trained iff the metric is below the threshold, and the error key holds the error if trained and NaN if not. |
| Objective.KerasRun | hyperpower.py:131-211 | An unparseable epoch count is an error; then a bad or missing threshold in constrained mode; then a generation error. A successful trial had a valid epoch count and executable, and profiled iff constrained. An unconstrained trial trains and answers the error of the trained executable. A constrained one with everything parsed is the constrained run on that executable and threshold. |
| Objective.SetupToTrial | hyperpower.py:131-211 | From accepted settings with parseable numbers and an executable: without a constraint the trial scores the error of training. With one, it succeeds unless error is optimised against an unmeasured metric, and its report has exactly the objective and constraint keys. |
| Objective.TrainedIffMarginPositive | hyperpower.py:160-188 | When error is optimised under a hardware constraint, the margin reported is the threshold minus the metric. The network is trained iff that margin is positive, and the objective is NaN iff it was not trained. |
| Objective.ConsistentRunFaults | hyperpower.py:131-211 | For setup-consistent settings with parseable numbers and a buildable executable, the only possible failure is an unknown constraint metric while optimising error. |
| Objective.ErrorExamples | hyperpower.py:147-148 | An accuracy of 0.9 scores 10, and 0.82 scores 18. |
| Objective.ViolatedExample | hyperpower.py:169-176 | Drawing 60 W against a 50 W limit reports NaN error and a margin of -10, without training. |
| Objective.HardwareObjectiveExample | hyperpower.py:190-211 | Minimising power under a 20 % error limit reports the measured power and the margin 20 minus the error, after training. |
| Objective.UnconstrainedExample | hyperpower.py:143-151 | Settings for optimising error without a constraint, one epoch and 90 % accuracy yield the scalar 10. |

## Left out

- Command-line parsing, creating the experiment directories, copying the
  driver script and starting the optimiser are left out: they are process
  and file-system effects.
- The probe for the `nvidia-smi` tool is left out; it only checks that the
  tool is installed.
- Pickle and JSON files are not modelled. The settings, declarations and
  template pass between the phases as values.
- Timestamps and the run prefix are left out; the prefix is a parameter.
- Payload decoding (`json.loads` plus reading `token`, `type`, `min`,
  `max` and `transform`) is an abstract parser that either yields a `Decl`
  or fails. A payload missing `token` or `type` is one the parser rejects.
- The `%d` and `%f` renderings of bounds, and `str()` of a substituted
  value, are abstract functions.
- The logarithm in `LOG<n>` is an abstract partial function. Non-integral
  exponents in `NEGEXP<b>` are also abstract; integral ones are computed
  exactly. Floating-point rounding and overflow are not modelled: values
  are mathematical reals.
- Numbers.ParseInt and Numbers.ParseDecimal: accept only an optional sign,
  digits, and for decimals one point. Python also accepts surrounding
  whitespace, exponents, `inf` and `nan`.
- Training (`execute_keras`) and profiling (`profile_keras`) are oracles
  given as functions. Their GPU measurements, timing and log parsing are
  not modelled.
- Iteration over a Python dict is given as a sequence in iteration order.
- The suggested values' array types are modelled as sequences of reals.
- An execution mode other than the two that setup produces cannot arise,
  because the mode is a two-valued datatype. The source's exit for an
  unknown mode is therefore not represented.

=== FILE: extraction.dfy ===
/**
 * The declaration extractor and config builder (`spearmint_generate_cfg`
 * in gener_experiment.py): every source line carrying the marker is split
 * at it, its payload decoded and registered under its token in source
 * order, and each INT or FLOAT declaration contributes one variable entry
 * to the search-space description handed to the optimiser.
 */
module Extraction {
  import opened Wrappers
  import opened Protocol
  import opened Text
  import opened Setup

  /** The `%d` and `%f` renderings of a bound. */
  datatype Format = Format(intText: real -> string, floatText: real -> string)

  /** A registered declaration: its token name and the payload text after the marker. */
  datatype TokenEntry = TokenEntry(name: string, description: string)

  /** A marked line decoded: the payload text and the record it parses to. */
  datatype Declared = Declared(payload: string, decl: Decl)

  /**
   * What setup produces: the config text, the registered tokens in source
   * order (the source's dictionary key k is index k - 1 here), and the
   * declarations by token name.
   */
  datatype Generated = Generated(config: string, tokens: seq<TokenEntry>, params: map<string, Decl>)

  /** The fixed header fields before the experiment name. */
  const LanguageFields: string :=
    "{\"language\": \"PYTHON\", \"main-file\": \"mainrun.py\", \"experiment-name\": \"hyperpower-"

  /** The header fields every config starts with. */
  function Preamble(prefix: string): string {
    LanguageFields + prefix + "\", "
  }

  /** The model-likelihood hint only the unconstrained header carries. */
  const LikelihoodHint: string := "\"likelihood\": \"GAUSSIAN\", "

  /** The opening of the variables section. */
  const VariablesOpen: string := "\"variables\" : {"

  /**
   * The header: the preamble naming the experiment after `prefix`, then,
   * only in unconstrained mode, the likelihood hint, then the opening of
   * the variables section, whose last character is its opening brace.
   */
  function Header(mode: ExecMode, prefix: string): (h: string)
    ensures |h| == |Preamble(prefix)| + (if mode.Unconstrained? then |LikelihoodHint| else 0) + |VariablesOpen|
    ensures h[..|Preamble(prefix)|] == Preamble(prefix)
    ensures h[|LanguageFields|..|LanguageFields| + |prefix|] == prefix
    ensures mode.Unconstrained? ==> h[|Preamble(prefix)|..|h| - |VariablesOpen|] == LikelihoodHint
    ensures h[|h| - |VariablesOpen|..] == VariablesOpen && h[|h| - 1] == '{'
  {
    match mode
    case Unconstrained => Preamble(prefix) + LikelihoodHint + VariablesOpen
    case Constrained => Preamble(prefix) + VariablesOpen
  }

  /** The task description tagging the optimised metric. */
  const ObjectiveTask: string := "\" : {\"type\" : \"OBJECTIVE\", \"likelihood\" : \"GAUSSIAN\"}, \""

  /** The task description tagging the constraint metric. */
  const ConstraintTask: string := "\" : {\"type\" : \"CONSTRAINT\", \"likelihood\" : \"GAUSSIAN\"}}}"

  /** The opening of the tasks section, closing the variables section first. */
  const TasksOpen: string := "}, \"tasks\": {\""

  /**
   * What follows the variables: in constrained mode a tasks section naming
   * the optimised metric as OBJECTIVE and the constraint metric as CONSTRAINT.
   */
  function Closing(s: Settings): (t: string)
    ensures |t| >= 2 && t[0] == '}' && t[|t| - 2..] == "}}"
    ensures s.mode.Unconstrained? <==> t == "}}"
    ensures s.mode.Constrained? ==>
      && |t| == |TasksOpen| + |s.optimize| + |ObjectiveTask| + |s.constraint| + |ConstraintTask|
      && t[..|TasksOpen|] == TasksOpen
      && t[|TasksOpen|..|TasksOpen| + |s.optimize|] == s.optimize
      && t[|TasksOpen| + |s.optimize|..|TasksOpen| + |s.optimize| + |ObjectiveTask|] == ObjectiveTask
      && t[|t| - |ConstraintTask| - |s.constraint|..|t| - |ConstraintTask|] == s.constraint
      && t[|t| - |ConstraintTask|..] == ConstraintTask
  {
    match s.mode
    case Unconstrained => "}}"
    case Constrained => TasksOpen + s.optimize + ObjectiveTask + s.constraint + ConstraintTask
  }

  /** The lines carrying the marker, as a line-wide regular-expression search finds them. */
  function DeclarationLines(source: string): (ls: seq<string>)
    ensures forall l :: l in ls <==> l in SplitLines(source) && Contains(l, Marker)
  {
    LinesWith(SplitLines(source), Marker)
  }

  /**
   * Splits a marked line at the marker (the line must hold the marker
   * exactly once) and decodes the payload after it.
   */
  function Declare(line: string, parse: string -> Option<Decl>): (r: Result<Declared, Fault>)
    ensures r.Ok? ==> parse(r.value.payload) == Some(r.value.decl)
    ensures r.Err? ==> r.error == MalformedDeclaration(line) || r.error.UnreadablePayload?
  {
    match SplitOnce(line, Marker)
    case None => Err(MalformedDeclaration(line))
    case Some((before, payload)) =>
      match parse(payload)
      case None => Err(UnreadablePayload(payload))
      case Some(d) => Ok(Declared(payload, d))
  }

  /**
   * A declaration is accepted exactly when the marker occurs once on the
   * line; the payload is then everything after it.
   */
  lemma DeclareSplitsLine(line: string, parse: string -> Option<Decl>)
    ensures Declare(line, parse).Ok? ==>
      exists before: string :: line == before + Marker + Declare(line, parse).value.payload &&
                               !Contains(before, Marker)
    ensures Declare(line, parse).Ok? ==> !Contains(Declare(line, parse).value.payload, Marker)
    ensures !Contains(line, Marker) ==> Declare(line, parse) == Err(MalformedDeclaration(line))
    ensures forall i: nat :: FirstAt(line, Marker, i) && Contains(line[i + |Marker|..], Marker) ==>
      Declare(line, parse) == Err(MalformedDeclaration(line))
  {
  }

  /**
   * The converse: a line that is a marker-free prefix, the marker and a
   * marker-free payload is split there, and its payload decoded.
   */
  lemma DeclareAccepts(before: string, payload: string, parse: string -> Option<Decl>)
    requires !Contains(before, Marker) && !Contains(payload, Marker)
    ensures parse(payload).Some? ==>
      Declare(before + Marker + payload, parse) == Ok(Declared(payload, parse(payload).value))
    ensures parse(payload).None? ==>
      Declare(before + Marker + payload, parse) == Err(UnreadablePayload(payload))
  {
    var line := before + Marker + payload;
    MarkerFirstAfter(before, payload);
    assert line[..|before|] == before;
    assert line[|before| + |Marker|..] == payload;
  }

  /**
   * The marker starts after a marker-free prefix: an occurrence starting
   * inside the prefix would either lie in it or overlap the marker, whose
   * first letter does not recur in it.
   */
  lemma MarkerFirstAfter(before: string, rest: string)
    requires !Contains(before, Marker)
    ensures FirstAt(before + Marker + rest, Marker, |before|)
  {
    var line := before + Marker + rest;
    var i := |before|;
    assert line[i..i + |Marker|] == Marker;
    forall j: nat | j < i
      ensures !OccursAt(line, Marker, j)
    {
      if j + |Marker| <= i {
        assert line[j..j + |Marker|] == before[j..j + |Marker|];
        assert !OccursAt(before, Marker, j);
      } else if j + |Marker| <= |line| {
        var d := i - j;
        assert 0 < d < |Marker|;
        assert line[j..j + |Marker|][d] == line[i] == 'H';
        assert Marker[d] != 'H';
      }
    }
  }

  /** The text between an entry's token and its kind. */
  const TypeOpen: string := "\": { \"type\": \""

  /** The text between an entry's kind and its lower bound. */
  const SizeOpen: string := "\", \"size\": 1, \"min\": "

  /** The text between an INT entry's token and its lower bound. */
  const IntFields: string := TypeOpen + "INT" + SizeOpen

  /** The text between a FLOAT entry's token and its lower bound. */
  const FloatFields: string := TypeOpen + "FLOAT" + SizeOpen

  /** The text between the two bounds. */
  const MaxField: string := ", \"max\": "

  /**
   * The variable entry a declaration appends to the config: the quoted
   * token, its kind, size 1 and both bounds, rendered with `%d` for INT and
   * `%f` for FLOAT; other kinds append nothing.
   */
  function Entry(d: Decl, fmt: Format): (e: string)
    requires HasBounds(d)
    ensures e == "" <==> !IsVariable(d)
    ensures e != "" ==> e[0] == '"' && e[|e| - 1] == ','
    ensures e != "" ==> |e| > |d.token| + 1 && e[1..|d.token| + 1] == d.token
    ensures d.kind == "INT" ==>
      e == "\"" + d.token + TypeOpen + d.kind + SizeOpen + fmt.intText(d.min.value)
           + MaxField + fmt.intText(d.max.value) + "},"
    ensures d.kind == "FLOAT" ==>
      e == "\"" + d.token + TypeOpen + d.kind + SizeOpen + fmt.floatText(d.min.value)
           + MaxField + fmt.floatText(d.max.value) + "},"
  {
    if d.kind == "INT" then
      var head := "\"" + d.token;
      FieldsSplice(head);
      assert head + IntFields + fmt.intText(d.min.value) ==
             head + TypeOpen + d.kind + SizeOpen + fmt.intText(d.min.value);
      head + IntFields + fmt.intText(d.min.value) + MaxField + fmt.intText(d.max.value) + "},"
    else if d.kind == "FLOAT" then
      var head := "\"" + d.token;
      FieldsSplice(head);
      assert head + FloatFields + fmt.floatText(d.min.value) ==
             head + TypeOpen + d.kind + SizeOpen + fmt.floatText(d.min.value);
      head + FloatFields + fmt.floatText(d.min.value) + MaxField + fmt.floatText(d.max.value) + "},"
    else ""
  }

  /** The fixed text of both kinds, split at the kind name. */
  lemma FieldsSplice(head: string)
    ensures head + IntFields == head + TypeOpen + "INT" + SizeOpen
    ensures head + FloatFields == head + TypeOpen + "FLOAT" + SizeOpen
  {
    KindSplice(head, "INT", IntFields);
    KindSplice(head, "FLOAT", FloatFields);
  }

  lemma KindSplice(head: string, kind: string, fields: string)
    requires fields == TypeOpen + kind + SizeOpen
    ensures head + fields == head + TypeOpen + kind + SizeOpen
  {
    ConcatAssoc(head, TypeOpen + kind, SizeOpen);
    ConcatAssoc(head, TypeOpen, kind);
  }

  predicate AllBounded(ds: seq<Declared>) {
    forall k :: 0 <= k < |ds| ==> HasBounds(ds[k].decl)
  }

  /** The entries of all declarations, in order. */
  function Variables(ds: seq<Declared>, fmt: Format): (v: string)
    requires AllBounded(ds)
    decreases |ds|
    ensures v == "" <==> forall k :: 0 <= k < |ds| ==> !IsVariable(ds[k].decl)
    ensures v != "" ==> v[|v| - 1] == ','
  {
    if ds == [] then ""
    else
      var rest := Variables(ds[1..], fmt);
      var e := Entry(ds[0].decl, fmt);
      EntriesJoin(ds, e, rest);
      e + rest
  }

  /** The entries of a list are empty iff the first's and the rest's are, and end with a comma otherwise. */
  lemma EntriesJoin(ds: seq<Declared>, e: string, rest: string)
    requires |ds| > 0
    requires e == "" <==> !IsVariable(ds[0].decl)
    requires e != "" ==> e[|e| - 1] == ','
    requires rest == "" <==> forall k :: 0 <= k < |ds[1..]| ==> !IsVariable(ds[1..][k].decl)
    requires rest != "" ==> rest[|rest| - 1] == ','
    ensures e + rest == "" <==> forall k :: 0 <= k < |ds| ==> !IsVariable(ds[k].decl)
    ensures e + rest != "" ==> (e + rest)[|e + rest| - 1] == ','
  {
    assert forall k :: 1 <= k < |ds| ==> ds[1..][k - 1] == ds[k];
    EndsWithComma(e, rest);
  }

  /** Two pieces, each empty or ending in a comma, join into such a piece. */
  lemma EndsWithComma(e: string, rest: string)
    requires e != "" ==> e[|e| - 1] == ','
    requires rest != "" ==> rest[|rest| - 1] == ','
    ensures e + rest == "" <==> e == "" && rest == ""
    ensures e + rest != "" ==> (e + rest)[|e + rest| - 1] == ','
  {
    if rest == "" {
      assert e + rest == e;
    }
  }

  /** Registration state: config text, tokens and declarations so far. */
  datatype Acc = Acc(config: string, tokens: seq<TokenEntry>, params: map<string, Decl>)

  /** Registers one accepted declaration. */
  function Step(acc: Acc, dd: Declared, fmt: Format): Acc
    requires HasBounds(dd.decl)
  {
    Acc(acc.config + Entry(dd.decl, fmt), acc.tokens + [TokenEntry(dd.decl.token, dd.payload)],
        acc.params[dd.decl.token := dd.decl])
  }

  /**
   * Registers the marked lines in order. The first line that does not
   * split or decode, repeats an earlier token, or lacks bounds aborts.
   */
  function Register(lines: seq<string>, parse: string -> Option<Decl>, fmt: Format, acc: Acc)
    : (r: Result<Acc, Fault>)
    decreases |lines|
    ensures r.Err? ==> r.error.MalformedDeclaration? || r.error.UnreadablePayload? ||
                       r.error.DuplicateToken? || r.error.MissingBounds?
    ensures r.Ok? ==> |r.value.tokens| == |acc.tokens| + |lines| &&
                      acc.params.Keys <= r.value.params.Keys
  {
    if lines == [] then Ok(acc)
    else
      match Declare(lines[0], parse)
      case Err(e) => Err(e)
      case Ok(dd) =>
        var name := dd.decl.token;
        if name in acc.params then Err(DuplicateToken(name))
        else if !HasBounds(dd.decl) then Err(MissingBounds(name))
        else
          Register(lines[1..], parse, fmt, Step(acc, dd, fmt))
  }

  /** Python's `s[:-1]`: the last character removed, if there is one. */
  function DropLast(s: string): (r: string)
    ensures |s| > 0 ==> s == r + [s[|s| - 1]]
    ensures |s| == 0 ==> r == s
  {
    if |s| == 0 then s else s[..|s| - 1]
  }

  /**
   * Builds the config for `source`. A source without any marked line is
   * rejected; the last character of the variables section (the trailing
   * comma) is dropped before the closing is appended.
   */
  function GenerateConfig(prefix: string, settings: Settings, source: string,
                          parse: string -> Option<Decl>, fmt: Format)
    : (r: Result<Generated, Fault>)
    ensures r == Err(NoHyperparameters) <==> DeclarationLines(source) == []
    ensures r.Ok? ==> |r.value.tokens| == |DeclarationLines(source)|
  {
    var lines := DeclarationLines(source);
    if lines == [] then Err(NoHyperparameters)
    else
      match Register(lines, parse, fmt, Acc(Header(settings.mode, prefix), [], map[]))
      case Err(e) => Err(e)
      case Ok(acc) =>
        Ok(Generated(DropLast(acc.config) + Closing(settings), acc.tokens, acc.params))
  }

  /** Every marked line decodes, and every variable declaration has bounds. */
  predicate AllDeclare(lines: seq<string>, parse: string -> Option<Decl>) {
    forall k :: 0 <= k < |lines| ==>
      Declare(lines[k], parse).Ok? && HasBounds(Declare(lines[k], parse).value.decl)
  }

  /** The decoded marked lines, line by line. */
  function DeclaredAll(lines: seq<string>, parse: string -> Option<Decl>): (ds: seq<Declared>)
    requires AllDeclare(lines, parse)
    decreases |lines|
    ensures |ds| == |lines| && AllBounded(ds)
    ensures forall k :: 0 <= k < |lines| ==> ds[k] == Declare(lines[k], parse).value
  {
    if lines == [] then []
    else
      AllDeclareTail(lines, parse);
      var rest := DeclaredAll(lines[1..], parse);
      DeclaredCons(lines, parse, rest);
      [Declare(lines[0], parse).value] + rest
  }

  /** The first line's declaration before those of the others decodes every line. */
  lemma DeclaredCons(lines: seq<string>, parse: string -> Option<Decl>, rest: seq<Declared>)
    requires lines != [] && AllDeclare(lines, parse)
    requires |rest| == |lines| - 1 && AllBounded(rest)
    requires forall k :: 0 <= k < |rest| ==> rest[k] == Declare(lines[1..][k], parse).value
    ensures var ds := [Declare(lines[0], parse).value] + rest;
            && |ds| == |lines| && AllBounded(ds)
            && (forall k :: 0 <= k < |lines| ==> ds[k] == Declare(lines[k], parse).value)
  {
    var ds := [Declare(lines[0], parse).value] + rest;
    forall k | 0 <= k < |lines| ensures ds[k] == Declare(lines[k], parse).value && HasBounds(ds[k].decl) {
      if k > 0 {
        assert ds[k] == rest[k - 1] && lines[1..][k - 1] == lines[k];
      }
    }
  }

  lemma AllDeclareTail(lines: seq<string>, parse: string -> Option<Decl>)
    requires lines != [] && AllDeclare(lines, parse)
    ensures AllDeclare(lines[1..], parse)
  {
    var rest := lines[1..];
    assert forall k :: 0 <= k < |rest| ==> rest[k] == lines[k + 1];
  }

  /** No token name is declared twice. */
  predicate DistinctTokens(ds: seq<Declared>) {
    forall i, j :: 0 <= i < j < |ds| ==> ds[i].decl.token != ds[j].decl.token
  }

  /** No token name is among those already registered. */
  predicate Unseen(ds: seq<Declared>, seen: map<string, Decl>) {
    forall k :: 0 <= k < |ds| ==> ds[k].decl.token !in seen
  }

  /** The token entries of declarations, in order. */
  function TokensOf(ds: seq<Declared>): (ts: seq<TokenEntry>)
    ensures |ts| == |ds|
    ensures forall k :: 0 <= k < |ds| ==> ts[k] == TokenEntry(ds[k].decl.token, ds[k].payload)
  {
    seq(|ds|, k requires 0 <= k < |ds| => TokenEntry(ds[k].decl.token, ds[k].payload))
  }

  function TokenSet(ds: seq<Declared>): set<string> {
    set k | 0 <= k < |ds| :: ds[k].decl.token
  }

  /**
   * Generation succeeds exactly when the source has a marked line, every
   * marked line decodes with bounds, and no token is declared twice. The
   * tokens are then numbered in source order, each holding its name and
   * payload, and every declaration is recorded under its token.
   */
  lemma GenerateConfigSucceeds(prefix: string, settings: Settings, source: string,
                               parse: string -> Option<Decl>, fmt: Format)
    ensures GenerateConfig(prefix, settings, source, parse, fmt).Ok? <==>
      var lines := DeclarationLines(source);
      lines != [] && AllDeclare(lines, parse) && DistinctTokens(DeclaredAll(lines, parse))
    ensures GenerateConfig(prefix, settings, source, parse, fmt).Ok? ==>
      var ds := DeclaredAll(DeclarationLines(source), parse);
      var g := GenerateConfig(prefix, settings, source, parse, fmt).value;
      && g.tokens == TokensOf(ds)
      && g.params.Keys == TokenSet(ds)
      && (forall k :: 0 <= k < |ds| ==> g.params[ds[k].decl.token] == ds[k].decl)
  {
    GenerateConfigOkIff(prefix, settings, source, parse, fmt);
    if GenerateConfig(prefix, settings, source, parse, fmt).Ok? {
      GenerateConfigContents(prefix, settings, source, parse, fmt);
    }
  }

  lemma GenerateConfigOkIff(prefix: string, settings: Settings, source: string,
                            parse: string -> Option<Decl>, fmt: Format)
    ensures GenerateConfig(prefix, settings, source, parse, fmt).Ok? <==>
      var lines := DeclarationLines(source);
      lines != [] && AllDeclare(lines, parse) && DistinctTokens(DeclaredAll(lines, parse))
  {
    var lines := DeclarationLines(source);
    if lines != [] {
      var acc := Acc(Header(settings.mode, prefix), [], map[]);
      GenerateFromRegister(prefix, settings, source, parse, fmt);
      RegisterSucceeds(lines, parse, fmt, acc);
      if AllDeclare(lines, parse) {
        assert Unseen(DeclaredAll(lines, parse), acc.params);
      }
    }
  }

  lemma GenerateConfigContents(prefix: string, settings: Settings, source: string,
                               parse: string -> Option<Decl>, fmt: Format)
    requires GenerateConfig(prefix, settings, source, parse, fmt).Ok?
    ensures AllDeclare(DeclarationLines(source), parse)
    ensures
      var ds := DeclaredAll(DeclarationLines(source), parse);
      var g := GenerateConfig(prefix, settings, source, parse, fmt).value;
      && g.tokens == TokensOf(ds)
      && g.params.Keys == TokenSet(ds)
      && (forall k :: 0 <= k < |ds| ==> g.params[ds[k].decl.token] == ds[k].decl)
  {
    var lines := DeclarationLines(source);
    var acc := Acc(Header(settings.mode, prefix), [], map[]);
    GenerateConfigOkIff(prefix, settings, source, parse, fmt);
    GenerateFromRegister(prefix, settings, source, parse, fmt);
    RegisterTokens(lines, parse, fmt, acc);
    RegisterRecords(lines, parse, fmt, acc);
  }

  /** With marked lines, generation succeeds with registration and keeps its tokens and records. */
  lemma GenerateFromRegister(prefix: string, settings: Settings, source: string,
                             parse: string -> Option<Decl>, fmt: Format)
    requires DeclarationLines(source) != []
    ensures var g := GenerateConfig(prefix, settings, source, parse, fmt);
            var reg := Register(DeclarationLines(source), parse, fmt, Acc(Header(settings.mode, prefix), [], map[]));
            && (g.Ok? <==> reg.Ok?)
            && (g.Ok? ==> g.value.tokens == reg.value.tokens && g.value.params == reg.value.params)
  {
  }

  /**
   * The config text: the header, the variable entries with their trailing
   * comma dropped, and the closing. When no INT or FLOAT declaration
   * contributed an entry, the character dropped is the header's opening
   * brace of the variables section instead.
   */
  lemma GenerateConfigText(prefix: string, settings: Settings, source: string,
                           parse: string -> Option<Decl>, fmt: Format)
    requires GenerateConfig(prefix, settings, source, parse, fmt).Ok?
    ensures AllDeclare(DeclarationLines(source), parse)
    ensures
      var v := Variables(DeclaredAll(DeclarationLines(source), parse), fmt);
      var h := Header(settings.mode, prefix);
      var c := GenerateConfig(prefix, settings, source, parse, fmt).value.config;
      && (v != "" ==> v[|v| - 1] == ',' && c == h + v[..|v| - 1] + Closing(settings))
      && (v == "" ==> c == DropLast(h) + Closing(settings))
  {
    GenerateConfigSucceeds(prefix, settings, source, parse, fmt);
    var lines := DeclarationLines(source);
    var h := Header(settings.mode, prefix);
    var acc := Acc(h, [], map[]);
    RegisterConfig(lines, parse, fmt, acc);
    var v := Variables(DeclaredAll(lines, parse), fmt);
    DropLastAppend(h, v);
  }

  lemma DropLastAppend(h: string, v: string)
    ensures v != "" ==> DropLast(h + v) == h + v[..|v| - 1]
    ensures v == "" ==> DropLast(h + v) == DropLast(h)
  {
    if v == "" {
      assert h + v == h;
    }
  }

  /**
   * Whatever the declarations, the config starts with the header less at
   * most its last character and ends with the closing for the mode: `}}`
   * unconstrained, the tasks section constrained.
   */
  lemma GenerateConfigFrame(prefix: string, settings: Settings, source: string,
                            parse: string -> Option<Decl>, fmt: Format)
    requires GenerateConfig(prefix, settings, source, parse, fmt).Ok?
    ensures
      var c := GenerateConfig(prefix, settings, source, parse, fmt).value.config;
      var h := Header(settings.mode, prefix);
      var t := Closing(settings);
      && |h| > 0 && |c| >= |h| - 1 + |t|
      && c[..|h| - 1] == h[..|h| - 1]
      && c[|c| - |t|..] == t
  {
    GenerateConfigText(prefix, settings, source, parse, fmt);
    HeaderEndsWithBrace(settings.mode, prefix);
    FrameOf(Header(settings.mode, prefix), Variables(DeclaredAll(DeclarationLines(source), parse), fmt),
            Closing(settings), GenerateConfig(prefix, settings, source, parse, fmt).value.config);
  }

  /** Every header ends by opening the variables section. */
  lemma HeaderEndsWithBrace(mode: ExecMode, prefix: string)
    ensures |Header(mode, prefix)| > 0 && Header(mode, prefix)[|Header(mode, prefix)| - 1] == '{'
  {
    var h := Header(mode, prefix);
    assert h[|h| - 1] == VariablesOpen[|VariablesOpen| - 1];
  }

  lemma FrameOf(h: string, v: string, t: string, c: string)
    requires |h| > 0
    requires v != "" ==> c == h + v[..|v| - 1] + t
    requires v == "" ==> c == DropLast(h) + t
    ensures |c| >= |h| - 1 + |t|
    ensures c[..|h| - 1] == h[..|h| - 1]
    ensures c[|c| - |t|..] == t
  {
    var body := if v != "" then h + v[..|v| - 1] else h[..|h| - 1];
    assert c == body + t;
    assert body[..|h| - 1] == h[..|h| - 1];
  }

  /** A token name that two marked lines declare makes generation fail. */
  lemma DuplicateTokenRejected(prefix: string, settings: Settings, source: string,
                               parse: string -> Option<Decl>, fmt: Format, i: nat, j: nat)
    requires i < j < |DeclarationLines(source)|
    requires Declare(DeclarationLines(source)[i], parse).Ok?
    requires Declare(DeclarationLines(source)[j], parse).Ok?
    requires Declare(DeclarationLines(source)[i], parse).value.decl.token ==
             Declare(DeclarationLines(source)[j], parse).value.decl.token
    ensures GenerateConfig(prefix, settings, source, parse, fmt).Err?
  {
    GenerateConfigSucceeds(prefix, settings, source, parse, fmt);
    var lines := DeclarationLines(source);
    if AllDeclare(lines, parse) {
      var ds := DeclaredAll(lines, parse);
      assert ds[i].decl.token == ds[j].decl.token;
    }
  }

  /**
   * The marked lines keep source order and repeats: the lines before a
   * given source line contribute their marked lines first, then that line
   * if it is marked, then the marked lines after it.
   */
  lemma DeclarationLinesAround(source: string, a: seq<string>, l: string, b: seq<string>)
    requires SplitLines(source) == a + [l] + b
    ensures DeclarationLines(source) ==
            LinesWith(a, Marker) + (if Contains(l, Marker) then [l] else []) + LinesWith(b, Marker)
  {
    LinesWithAppend(a + [l], b, Marker);
    LinesWithAppend(a, [l], Marker);
    LinesWithOne(l, Marker);
  }

  /**
   * A marked source line that occurs twice makes generation fail: either it
   * does not decode, or both copies declare the same token.
   */
  lemma RepeatedLineRejected(prefix: string, settings: Settings, source: string,
                             parse: string -> Option<Decl>, fmt: Format,
                             a: seq<string>, l: string, m: seq<string>, b: seq<string>)
    requires SplitLines(source) == a + [l] + m + [l] + b
    requires Contains(l, Marker)
    ensures GenerateConfig(prefix, settings, source, parse, fmt).Err?
  {
    var la, lm, lb := LinesWith(a, Marker), LinesWith(m, Marker), LinesWith(b, Marker);
    RepeatedLines(source, a, l, m, b);
    var lines := DeclarationLines(source);
    var i, j := |la|, |la| + 1 + |lm|;
    assert lines[i] == l && lines[j] == l;
    GenerateConfigSucceeds(prefix, settings, source, parse, fmt);
    if AllDeclare(lines, parse) {
      var ds := DeclaredAll(lines, parse);
      assert ds[i] == ds[j];
      assert !DistinctTokens(ds);
    }
  }

  /** The marked lines around two copies of one marked line. */
  lemma RepeatedLines(source: string, a: seq<string>, l: string, m: seq<string>, b: seq<string>)
    requires SplitLines(source) == a + [l] + m + [l] + b
    requires Contains(l, Marker)
    ensures DeclarationLines(source) ==
            LinesWith(a, Marker) + [l] + LinesWith(m, Marker) + [l] + LinesWith(b, Marker)
  {
    DeclarationLinesAround(source, a + [l] + m, l, b);
    LinesWithAppend(a + [l], m, Marker);
    LinesWithAppend(a, [l], Marker);
    LinesWithOne(l, Marker);
  }

  /**
   * A source of two declaration lines with different tokens: generation
   * succeeds, numbers the two tokens in source order with their payloads,
   * and records exactly the two declarations.
   */
  lemma TwoDeclarations(prefix: string, settings: Settings, parse: string -> Option<Decl>, fmt: Format,
                        b1: string, p1: string, b2: string, p2: string)
    requires !Contains(b1, Marker) && !Contains(p1, Marker) && !Contains(b2, Marker) && !Contains(p2, Marker)
    requires '\n' !in b1 + Marker + p1 && '\n' !in b2 + Marker + p2
    requires parse(p1).Some? && HasBounds(parse(p1).value)
    requires parse(p2).Some? && HasBounds(parse(p2).value)
    requires parse(p1).value.token != parse(p2).value.token
    ensures var g := GenerateConfig(prefix, settings, (b1 + Marker + p1) + "\n" + (b2 + Marker + p2), parse, fmt);
            var d1, d2 := parse(p1).value, parse(p2).value;
            && g.Ok?
            && g.value.tokens == [TokenEntry(d1.token, p1), TokenEntry(d2.token, p2)]
            && g.value.params == map[d1.token := d1, d2.token := d2]
  {
    var l1, l2 := b1 + Marker + p1, b2 + Marker + p2;
    var source := l1 + "\n" + l2;
    MarkerFirstAfter(b1, p1);
    MarkerFirstAfter(b2, p2);
    TwoMarkedLines(l1, l2);
    TwoAccepted(b1, p1, b2, p2, parse);
    var ds := DeclaredAll([l1, l2], parse);
    TwoDeclared(prefix, settings, source, parse, fmt, ds);
  }

  /** Both lines decode, to their payloads and the parser's declarations. */
  lemma TwoAccepted(b1: string, p1: string, b2: string, p2: string, parse: string -> Option<Decl>)
    requires !Contains(b1, Marker) && !Contains(p1, Marker) && !Contains(b2, Marker) && !Contains(p2, Marker)
    requires parse(p1).Some? && HasBounds(parse(p1).value)
    requires parse(p2).Some? && HasBounds(parse(p2).value)
    ensures AllDeclare([b1 + Marker + p1, b2 + Marker + p2], parse)
    ensures DeclaredAll([b1 + Marker + p1, b2 + Marker + p2], parse) ==
            [Declared(p1, parse(p1).value), Declared(p2, parse(p2).value)]
  {
    DeclareAccepts(b1, p1, parse);
    DeclareAccepts(b2, p2, parse);
  }

  /** Two newline-free lines that both carry the marker are both found, in order. */
  lemma TwoMarkedLines(l1: string, l2: string)
    requires '\n' !in l1 && '\n' !in l2
    requires Contains(l1, Marker) && Contains(l2, Marker)
    ensures DeclarationLines(l1 + "\n" + l2) == [l1, l2]
  {
    SplitLinesCons(l1, l2);
    SplitLinesSingle(l2);
    assert [l1] + [l2] == [l1, l2];
    LinesWithAppend([l1], [l2], Marker);
    LinesWithOne(l1, Marker);
    LinesWithOne(l2, Marker);
  }

  /** Generation from two accepted declarations with different tokens. */
  lemma TwoDeclared(prefix: string, settings: Settings, source: string, parse: string -> Option<Decl>,
                    fmt: Format, ds: seq<Declared>)
    requires AllDeclare(DeclarationLines(source), parse)
    requires DeclaredAll(DeclarationLines(source), parse) == ds
    requires |ds| == 2 && ds[0].decl.token != ds[1].decl.token
    ensures var g := GenerateConfig(prefix, settings, source, parse, fmt);
            && g.Ok?
            && g.value.tokens == [TokenEntry(ds[0].decl.token, ds[0].payload), TokenEntry(ds[1].decl.token, ds[1].payload)]
            && g.value.params == map[ds[0].decl.token := ds[0].decl, ds[1].decl.token := ds[1].decl]
  {
    assert DistinctTokens(ds);
    GenerateConfigOkIff(prefix, settings, source, parse, fmt);
    var r := GenerateConfig(prefix, settings, source, parse, fmt);
    assert r.Ok?;
    GenerateConfigContents(prefix, settings, source, parse, fmt);
    PairTokens(ds);
    PairParams(ds, r.value.params);
  }

  lemma PairTokens(ds: seq<Declared>)
    requires |ds| == 2
    ensures TokensOf(ds) == [TokenEntry(ds[0].decl.token, ds[0].payload), TokenEntry(ds[1].decl.token, ds[1].payload)]
    ensures TokenSet(ds) == {ds[0].decl.token, ds[1].decl.token}
  {
    assert ds[0].decl.token in TokenSet(ds);
    assert ds[1].decl.token in TokenSet(ds);
  }

  lemma PairParams(ds: seq<Declared>, params: map<string, Decl>)
    requires |ds| == 2
    requires params.Keys == {ds[0].decl.token, ds[1].decl.token}
    requires forall k :: 0 <= k < |ds| ==> params[ds[k].decl.token] == ds[k].decl
    ensures params == map[ds[0].decl.token := ds[0].decl, ds[1].decl.token := ds[1].decl]
  {
    assert params[ds[0].decl.token] == ds[0].decl;
    assert params[ds[1].decl.token] == ds[1].decl;
  }

  /** The first marked line and the rest, separately. */
  lemma AllDeclareCons(lines: seq<string>, parse: string -> Option<Decl>)
    requires lines != []
    ensures AllDeclare(lines, parse) <==>
      Declare(lines[0], parse).Ok? && HasBounds(Declare(lines[0], parse).value.decl) &&
      AllDeclare(lines[1..], parse)
    ensures AllDeclare(lines, parse) ==>
      DeclaredAll(lines, parse) == [Declare(lines[0], parse).value] + DeclaredAll(lines[1..], parse)
  {
    var rest := lines[1..];
    assert forall k :: 0 <= k < |rest| ==> rest[k] == lines[k + 1];
  }

  /**
   * Sequential registration agrees with the all-at-once description: it
   * succeeds exactly when every marked line decodes with bounds and every
   * token is new.
   */
  lemma {:induction false} RegisterSucceeds(lines: seq<string>, parse: string -> Option<Decl>,
                                            fmt: Format, acc: Acc)
    decreases |lines|
    ensures Register(lines, parse, fmt, acc).Ok? <==>
      AllDeclare(lines, parse) && DistinctTokens(DeclaredAll(lines, parse)) &&
      Unseen(DeclaredAll(lines, parse), acc.params)
  {
    if lines != [] {
      AllDeclareCons(lines, parse);
      match Declare(lines[0], parse)
      case Err(e) =>
      case Ok(dd) =>
        if dd.decl.token in acc.params {
          if AllDeclare(lines, parse) {
            assert DeclaredAll(lines, parse)[0] == dd;
          }
        } else if HasBounds(dd.decl) {
          var acc' := Step(acc, dd, fmt);
          assert Register(lines, parse, fmt, acc) == Register(lines[1..], parse, fmt, acc');
          RegisterSucceeds(lines[1..], parse, fmt, acc');
          if AllDeclare(lines[1..], parse) {
            FreshCons(dd, DeclaredAll(lines[1..], parse), acc.params);
          }
        }
    }
  }

  /** A successful registration of a non-empty list starts with one good step. */
  lemma RegisterUnfold(lines: seq<string>, parse: string -> Option<Decl>, fmt: Format, acc: Acc)
    requires lines != [] && AllDeclare(lines, parse) && Register(lines, parse, fmt, acc).Ok?
    ensures Declare(lines[0], parse).Ok? && HasBounds(Declare(lines[0], parse).value.decl)
    ensures Declare(lines[0], parse).value.decl.token !in acc.params
    ensures AllDeclare(lines[1..], parse)
    ensures DeclaredAll(lines, parse) == [Declare(lines[0], parse).value] + DeclaredAll(lines[1..], parse)
    ensures Register(lines, parse, fmt, acc) ==
            Register(lines[1..], parse, fmt, Step(acc, Declare(lines[0], parse).value, fmt))
  {
    AllDeclareCons(lines, parse);
  }

  /** A successful registration appends the variable entries in source order. */
  lemma {:induction false} RegisterConfig(lines: seq<string>, parse: string -> Option<Decl>,
                                          fmt: Format, acc: Acc)
    requires AllDeclare(lines, parse) && Register(lines, parse, fmt, acc).Ok?
    decreases |lines|
    ensures Register(lines, parse, fmt, acc).value.config == acc.config + Variables(DeclaredAll(lines, parse), fmt)
  {
    if lines != [] {
      RegisterUnfold(lines, parse, fmt, acc);
      var dd := Declare(lines[0], parse).value;
      var ds' := DeclaredAll(lines[1..], parse);
      var acc' := Step(acc, dd, fmt);
      RegisterConfig(lines[1..], parse, fmt, acc');
      VariablesCons(dd, ds', fmt);
      var e := Entry(dd.decl, fmt);
      var v := Variables(ds', fmt);
      assert acc'.config == acc.config + e;
      ConcatAssoc(acc.config, e, v);
    }
  }

  /** A successful registration appends the token entries in source order. */
  lemma {:induction false} RegisterTokens(lines: seq<string>, parse: string -> Option<Decl>,
                                          fmt: Format, acc: Acc)
    requires AllDeclare(lines, parse) && Register(lines, parse, fmt, acc).Ok?
    decreases |lines|
    ensures Register(lines, parse, fmt, acc).value.tokens == acc.tokens + TokensOf(DeclaredAll(lines, parse))
  {
    if lines != [] {
      RegisterUnfold(lines, parse, fmt, acc);
      var dd := Declare(lines[0], parse).value;
      var ds' := DeclaredAll(lines[1..], parse);
      RegisterTokens(lines[1..], parse, fmt, Step(acc, dd, fmt));
      TokensOfCons(dd, ds');
      var te := [TokenEntry(dd.decl.token, dd.payload)];
      assert Step(acc, dd, fmt).tokens == acc.tokens + te;
      ConcatAssoc(acc.tokens, te, TokensOf(ds'));
    } else {
      assert TokensOf([]) == [];
    }
  }

  lemma VariablesCons(d: Declared, ds: seq<Declared>, fmt: Format)
    requires HasBounds(d.decl) && AllBounded(ds)
    ensures AllBounded([d] + ds)
    ensures Variables([d] + ds, fmt) == Entry(d.decl, fmt) + Variables(ds, fmt)
  {
    assert ([d] + ds)[1..] == ds;
  }

  /**
   * A successful registration records every declaration under its token
   * and keeps every declaration registered before.
   */
  lemma {:induction false} RegisterRecords(lines: seq<string>, parse: string -> Option<Decl>,
                                           fmt: Format, acc: Acc)
    requires AllDeclare(lines, parse) && Register(lines, parse, fmt, acc).Ok?
    decreases |lines|
    ensures
      var ds := DeclaredAll(lines, parse);
      var r := Register(lines, parse, fmt, acc).value;
      && r.params.Keys == acc.params.Keys + TokenSet(ds)
      && (forall t :: t in acc.params ==> r.params[t] == acc.params[t])
      && (forall k :: 0 <= k < |ds| ==> r.params[ds[k].decl.token] == ds[k].decl)
  {
    if lines != [] {
      RegisterUnfold(lines, parse, fmt, acc);
      var dd := Declare(lines[0], parse).value;
      var acc' := Step(acc, dd, fmt);
      RegisterRecords(lines[1..], parse, fmt, acc');
      var ds := DeclaredAll(lines, parse);
      var ds' := DeclaredAll(lines[1..], parse);
      TokenSetCons(dd, ds');
      var r := Register(lines, parse, fmt, acc).value;
      forall t | t in acc.params ensures r.params[t] == acc.params[t] {
        assert t in acc'.params && acc'.params[t] == acc.params[t];
      }
      assert ds == [dd] + ds';
      RecordsCons(r.params, dd, ds');
    } else {
      assert TokenSet([]) == {};
    }
  }

  /** Records that hold for a declaration and for those after it hold for all of them. */
  lemma RecordsCons(params: map<string, Decl>, dd: Declared, ds: seq<Declared>)
    requires dd.decl.token in params && params[dd.decl.token] == dd.decl
    requires forall k :: 0 <= k < |ds| ==> ds[k].decl.token in params && params[ds[k].decl.token] == ds[k].decl
    ensures forall k :: 0 <= k < |[dd] + ds| ==> params[([dd] + ds)[k].decl.token] == ([dd] + ds)[k].decl
  {
    var all := [dd] + ds;
    forall k | 0 <= k < |all| ensures params[all[k].decl.token] == all[k].decl {
      if k > 0 { assert all[k] == ds[k - 1]; }
    }
  }

  /** Prepending one declaration to a list that is free of clashes. */
  lemma FreshCons(d: Declared, ds: seq<Declared>, seen: map<string, Decl>)
    ensures DistinctTokens([d] + ds) && Unseen([d] + ds, seen) <==>
            d.decl.token !in seen && DistinctTokens(ds) && Unseen(ds, seen[d.decl.token := d.decl])
  {
    if DistinctTokens([d] + ds) && Unseen([d] + ds, seen) {
      FreshTail(d, ds, seen);
    }
    if d.decl.token !in seen && DistinctTokens(ds) && Unseen(ds, seen[d.decl.token := d.decl]) {
      FreshWhole(d, ds, seen);
    }
  }

  lemma FreshTail(d: Declared, ds: seq<Declared>, seen: map<string, Decl>)
    requires DistinctTokens([d] + ds) && Unseen([d] + ds, seen)
    ensures d.decl.token !in seen && DistinctTokens(ds) && Unseen(ds, seen[d.decl.token := d.decl])
  {
    var all := [d] + ds;
    var seen' := seen[d.decl.token := d.decl];
    assert all[0] == d;
    forall i, j | 0 <= i < j < |ds| ensures ds[i].decl.token != ds[j].decl.token {
      assert all[i + 1] == ds[i] && all[j + 1] == ds[j];
    }
    forall k | 0 <= k < |ds| ensures ds[k].decl.token !in seen' {
      assert all[k + 1] == ds[k];
    }
  }

  lemma FreshWhole(d: Declared, ds: seq<Declared>, seen: map<string, Decl>)
    requires d.decl.token !in seen && DistinctTokens(ds) && Unseen(ds, seen[d.decl.token := d.decl])
    ensures DistinctTokens([d] + ds) && Unseen([d] + ds, seen)
  {
    var all := [d] + ds;
    var seen' := seen[d.decl.token := d.decl];
    forall i, j | 0 <= i < j < |all| ensures all[i].decl.token != all[j].decl.token {
      assert all[j] == ds[j - 1];
      if i == 0 {
        assert ds[j - 1].decl.token !in seen';
      } else {
        assert all[i] == ds[i - 1];
      }
    }
    forall k | 0 <= k < |all| ensures all[k].decl.token !in seen {
      if k > 0 { assert all[k] == ds[k - 1]; }
    }
  }

  /** Prepending one declaration to the token entries. */
  lemma TokensOfCons(d: Declared, ds: seq<Declared>)
    ensures TokensOf([d] + ds) == [TokenEntry(d.decl.token, d.payload)] + TokensOf(ds)
  {
    var all := [d] + ds;
    var lhs := TokensOf(all);
    var rhs := [TokenEntry(d.decl.token, d.payload)] + TokensOf(ds);
    assert |lhs| == |rhs|;
    forall k | 0 <= k < |lhs| ensures lhs[k] == rhs[k] {
      if k > 0 { assert all[k] == ds[k - 1]; }
    }
  }

  /** Prepending one declaration to the token set. */
  lemma TokenSetCons(d: Declared, ds: seq<Declared>)
    ensures TokenSet([d] + ds) == {d.decl.token} + TokenSet(ds)
  {
    var all := [d] + ds;
    forall t | t in TokenSet(all) ensures t in {d.decl.token} + TokenSet(ds) {
      var k :| 0 <= k < |all| && all[k].decl.token == t;
      if k > 0 { assert ds[k - 1].decl.token == t; }
    }
    forall t | t in TokenSet(ds) ensures t in TokenSet(all) {
      var k :| 0 <= k < |ds| && ds[k].decl.token == t;
      assert all[k + 1].decl.token == t;
    }
    assert all[0].decl.token in TokenSet(all);
  }

  lemma ConcatAssoc<T>(a: seq<T>, b: seq<T>, c: seq<T>)
    ensures (a + b) + c == a + (b + c)
  {
  }
}

=== FILE: instantiation.dfy ===
/**
 * Instantiating the template for one trial (`generate_keras_executable` in
 * hyperpower.py): every suggested value is first transformed according to
 * its declaration, then the first occurrence of each placeholder in the
 * template is replaced by the text of the value's element 0.
 */
module Instantiation {
  import opened Wrappers
  import opened Protocol
  import opened Text
  import opened Transforms
  import opened Extraction
  import opened Templating

  /**
   * One suggested parameter: its token name and its value list. The
   * suggestion is a dictionary; the sequence lists it in iteration order.
   */
  datatype Binding = Binding(name: string, value: seq<real>)

  /** The declared transform applied to one binding; an undeclared name is an error. */
  function TransformOne(defs: map<string, Decl>, b: Binding, num: Numerics): (r: Result<Binding, Fault>)
    ensures b.name !in defs ==> r == Err(UnknownParameter(b.name))
    ensures r.Ok? ==> r.value.name == b.name && b.name in defs
    ensures b.name in defs ==>
      match ApplyTransform(defs[b.name].transform, b.value, num)
      case Ok(v) => r == Ok(Binding(b.name, v))
      case Err(e) => r == Err(e)
  {
    if b.name !in defs then Err(UnknownParameter(b.name))
    else
      match ApplyTransform(defs[b.name].transform, b.value, num)
      case Ok(v) => Ok(Binding(b.name, v))
      case Err(e) => Err(e)
  }

  /** Transforms every binding in order; the first failure aborts. */
  function TransformAll(defs: map<string, Decl>, ps: seq<Binding>, num: Numerics): (r: Result<seq<Binding>, Fault>)
    decreases |ps|
    ensures r.Ok? <==> forall k :: 0 <= k < |ps| ==> TransformOne(defs, ps[k], num).Ok?
    ensures r.Ok? ==> (|r.value| == |ps| &&
                       forall k :: 0 <= k < |ps| ==> TransformOne(defs, ps[k], num) == Ok(r.value[k]))
    ensures r.Err? ==> (exists k :: 0 <= k < |ps| && TransformOne(defs, ps[k], num) == Err(r.error) &&
                                   forall j :: 0 <= j < k ==> TransformOne(defs, ps[j], num).Ok?)
  {
    if ps == [] then Ok([])
    else
      match TransformOne(defs, ps[0], num)
      case Err(e) => Err(e)
      case Ok(b) =>
        match TransformAll(defs, ps[1..], num)
        case Err(e) =>
          assert forall j :: 1 <= j < |ps| ==> ps[j] == ps[1..][j - 1];
          Err(e)
        case Ok(bs) =>
          assert forall j :: 1 <= j < |ps| ==> ps[j] == ps[1..][j - 1];
          Ok([b] + bs)
  }

  /** Transforming keeps the names and their order. */
  lemma TransformAllKeepsNames(defs: map<string, Decl>, ps: seq<Binding>, num: Numerics)
    requires TransformAll(defs, ps, num).Ok?
    ensures forall k :: 0 <= k < |ps| ==> TransformAll(defs, ps, num).value[k].name == ps[k].name
  {
    var r := TransformAll(defs, ps, num);
    forall k | 0 <= k < |ps|
      ensures r.value[k].name == ps[k].name
    {
      assert TransformOne(defs, ps[k], num) == Ok(r.value[k]);
    }
  }

  /** Bindings whose declarations name no transform pass through unchanged. */
  lemma {:induction false} UntransformedUnchanged(defs: map<string, Decl>, ps: seq<Binding>, num: Numerics)
    requires forall k :: 0 <= k < |ps| ==> ps[k].name in defs && defs[ps[k].name].transform.None?
    ensures TransformAll(defs, ps, num) == Ok(ps)
    decreases |ps|
  {
    if ps != [] {
      assert TransformOne(defs, ps[0], num) == Ok(ps[0]);
      UntransformedUnchanged(defs, ps[1..], num);
      assert ps == [ps[0]] + ps[1..];
    }
  }

  /**
   * Replaces the first occurrence of each binding's placeholder by the text
   * of its element 0, in order; a binding with no element 0 is an error.
   */
  function Substitute(template: string, ps: seq<Binding>, show: real -> string): (r: Result<string, Fault>)
    decreases |ps|
    ensures r.Ok? <==> forall k :: 0 <= k < |ps| ==> |ps[k].value| > 0
    ensures r.Err? ==> r.error == EmptyValue
  {
    if ps == [] then Ok(template)
    else if ps[0].value == [] then Err(EmptyValue)
    else
      var r := Substitute(ReplaceFirst(template, Placeholder(ps[0].name), show(ps[0].value[0])), ps[1..], show);
      assert forall j :: 1 <= j < |ps| ==> ps[j] == ps[1..][j - 1];
      r
  }

  /** All values of `ps` have an element 0. */
  predicate Filled(ps: seq<Binding>) {
    forall k :: 0 <= k < |ps| ==> |ps[k].value| > 0
  }

  /** A template in which no binding's placeholder occurs comes back unchanged. */
  lemma {:induction false} SubstituteWithoutPlaceholders(template: string, ps: seq<Binding>, show: real -> string)
    requires Filled(ps)
    requires forall k :: 0 <= k < |ps| ==> !Contains(template, Placeholder(ps[k].name))
    ensures Substitute(template, ps, show) == Ok(template)
    decreases |ps|
  {
    if ps != [] {
      assert ReplaceFirst(template, Placeholder(ps[0].name), show(ps[0].value[0])) == template;
      assert forall j :: 1 <= j < |ps| ==> ps[j] == ps[1..][j - 1];
      SubstituteWithoutPlaceholders(template, ps[1..], show);
    }
  }

  /** The leftmost placeholder of a single binding is replaced by its value's text. */
  lemma SubstituteOne(pre: string, post: string, name: string, v: seq<real>, show: real -> string)
    requires |v| > 0
    requires FirstAt(pre + Placeholder(name) + post, Placeholder(name), |pre|)
    ensures Substitute(pre + Placeholder(name) + post, [Binding(name, v)], show) == Ok(pre + show(v[0]) + post)
  {
    ReplaceAt(pre, Placeholder(name), post, show(v[0]));
  }

  /**
   * Placeholders are matched as plain text: when the name `n` is followed
   * by more name characters, the placeholder of `n` matches inside the
   * longer one, and the value of `n` lands before the rest of the longer
   * name.
   */
  lemma PrefixCollision(pre: string, n: string, rest: string, post: string, x: real, show: real -> string)
    requires FirstAt(pre + Placeholder(n + rest) + post, Placeholder(n), |pre|)
    ensures Substitute(pre + Placeholder(n + rest) + post, [Binding(n, [x])], show) ==
            Ok(pre + show(x) + rest + post)
  {
    assert Placeholder(n + rest) == Placeholder(n) + rest;
    assert pre + Placeholder(n + rest) + post == pre + Placeholder(n) + (rest + post);
    ReplaceAt(pre, Placeholder(n), rest + post, show(x));
    assert pre + show(x) + (rest + post) == pre + show(x) + rest + post;
  }

  /**
   * Bindings are substituted one after another: the last binding's
   * placeholder is replaced in the text the earlier ones produced.
   */
  lemma {:induction false} SubstituteSnoc(template: string, ps: seq<Binding>, b: Binding, show: real -> string)
    decreases |ps|
    ensures Substitute(template, ps, show).Err? ==>
      Substitute(template, ps + [b], show) == Substitute(template, ps, show)
    ensures Substitute(template, ps, show).Ok? ==>
      Substitute(template, ps + [b], show) == Substitute(Substitute(template, ps, show).value, [b], show)
  {
    if ps == [] {
      assert [] + [b] == [b];
    } else {
      assert (ps + [b])[0] == ps[0];
      assert (ps + [b])[1..] == ps[1..] + [b];
      if ps[0].value != [] {
        SubstituteSnoc(ReplaceFirst(template, Placeholder(ps[0].name), show(ps[0].value[0])), ps[1..], b, show);
      }
    }
  }

  /**
   * Two declarations instantiated in order: each placeholder, found first
   * in the text as it stands when its turn comes, is replaced by the text of
   * its value.
   */
  lemma SubstituteTwo(pre: string, mid: string, post: string, a: string, b: string,
                      x: real, y: real, show: real -> string)
    requires FirstAt(pre + Placeholder(a) + mid + Placeholder(b) + post, Placeholder(a), |pre|)
    requires FirstAt(pre + show(x) + mid + Placeholder(b) + post, Placeholder(b), |pre + show(x) + mid|)
    ensures Substitute(pre + Placeholder(a) + mid + Placeholder(b) + post,
                       [Binding(a, [x]), Binding(b, [y])], show) ==
            Ok(pre + show(x) + mid + show(y) + post)
  {
    SubstituteHead(pre + Placeholder(a) + mid + Placeholder(b) + post, Binding(a, [x]), [Binding(b, [y])], show);
    ReplaceAtBefore(pre, Placeholder(a), mid, Placeholder(b), post, show(x));
    SubstituteOne(pre + show(x) + mid, post, b, [y], show);
  }

  /** The first binding is substituted before the rest are. */
  lemma SubstituteHead(template: string, b: Binding, rest: seq<Binding>, show: real -> string)
    requires |b.value| > 0
    ensures Substitute(template, [b] + rest, show) ==
            Substitute(ReplaceFirst(template, Placeholder(b.name), show(b.value[0])), rest, show)
  {
    assert ([b] + rest)[1..] == rest;
  }

  /** The executable for one trial: transform every value, then substitute. */
  function GenerateExecutable(defs: map<string, Decl>, ps: seq<Binding>, template: string,
                              num: Numerics, show: real -> string): (r: Result<string, Fault>)
    ensures r.Ok? <==> forall k :: 0 <= k < |ps| ==>
      TransformOne(defs, ps[k], num).Ok? && |TransformOne(defs, ps[k], num).value.value| > 0
    ensures r.Err? ==>
      (exists k :: 0 <= k < |ps| && TransformOne(defs, ps[k], num) == Err(r.error) &&
                  forall j :: 0 <= j < k ==> TransformOne(defs, ps[j], num).Ok?) ||
      ((forall k :: 0 <= k < |ps| ==> TransformOne(defs, ps[k], num).Ok?) && r.error == EmptyValue)
    ensures TransformAll(defs, ps, num).Err? ==> r == Err(TransformAll(defs, ps, num).error)
    ensures TransformAll(defs, ps, num).Ok? ==> r == Substitute(template, TransformAll(defs, ps, num).value, show)
  {
    match TransformAll(defs, ps, num)
    case Err(e) => Err(e)
    case Ok(qs) => Substitute(template, qs, show)
  }

  /** Without transforms, the executable is the plain substitution of the suggestion. */
  lemma GenerateUntransformed(defs: map<string, Decl>, ps: seq<Binding>, template: string,
                              num: Numerics, show: real -> string)
    requires forall k :: 0 <= k < |ps| ==> ps[k].name in defs && defs[ps[k].name].transform.None?
    ensures GenerateExecutable(defs, ps, template, num, show) == Substitute(template, ps, show)
  {
    UntransformedUnchanged(defs, ps, num);
  }

  /**
   * A suggestion naming a parameter that was never declared aborts the
   * trial, whatever comes after it.
   */
  lemma UnknownParameterAborts(defs: map<string, Decl>, ps: seq<Binding>, template: string,
                               num: Numerics, show: real -> string, k: nat)
    requires k < |ps| && ps[k].name !in defs
    requires forall j :: 0 <= j < k ==> TransformOne(defs, ps[j], num).Ok?
    ensures GenerateExecutable(defs, ps, template, num, show) == Err(UnknownParameter(ps[k].name))
  {
    var r := TransformAll(defs, ps, num);
    assert !TransformOne(defs, ps[k], num).Ok?;
    var i :| 0 <= i < |ps| && TransformOne(defs, ps[i], num) == Err(r.error) &&
      forall j :: 0 <= j < i ==> TransformOne(defs, ps[j], num).Ok?;
    assert i == k;
  }

  /**
   * The round trip of one declaration: the template replaces the payload
   * after the marker by the placeholder, and instantiation puts the value's
   * text where the whole declaration stood.
   */
  lemma DeclarationToValue(pre: string, payload: string, post: string, name: string,
                           x: real, show: real -> string)
    requires FirstAt(pre + Marker + payload + post, payload, |pre| + |Marker|)
    requires FirstAt(pre + Placeholder(name) + post, Placeholder(name), |pre|)
    ensures Substitute(BuildTemplate(pre + Marker + payload + post, [TokenEntry(name, payload)]),
                       [Binding(name, [x])], show) == Ok(pre + show(x) + post)
  {
    var t := ReplaceFirst(pre + Marker + payload + post, payload, "_" + name);
    DeclarationBecomesPlaceholder(pre, payload, post, name);
    assert BuildTemplate(pre + Marker + payload + post, [TokenEntry(name, payload)]) == t;
    SubstituteOne(pre, post, name, [x], show);
  }
}

=== FILE: numbers.dfy ===
/**
 * Exact arithmetic and number parsing used by the transforms and by the
 * trial settings: integer powers of a real base, Python's `int(text)` and
 * the plain decimal subset of Python's `float(text)`.
 */
module Numbers {
  import opened Wrappers
  import Text

  /** `b` raised to a natural power. */
  function Pow(b: real, n: nat): real
    decreases n
  {
    if n == 0 then 1.0 else b * Pow(b, n - 1)
  }

  /** A power of a non-zero base is non-zero (and positive for a positive base). */
  lemma {:induction false} PowNonZero(b: real, n: nat)
    decreases n
    ensures b != 0.0 ==> Pow(b, n) != 0.0
    ensures b > 0.0 ==> Pow(b, n) > 0.0
  {
    if n > 0 {
      PowNonZero(b, n - 1);
    }
  }

  /**
   * `b` raised to an integer power. A negative power of zero is undefined,
   * as Python's `0.0 ** -1.0` raises.
   */
  function PowInt(b: real, e: int): (r: real)
    requires b != 0.0 || e >= 0
    ensures e < 0 ==> r * Pow(b, -e) == 1.0
    ensures e >= 0 ==> r == Pow(b, e)
  {
    if e >= 0 then Pow(b, e)
    else
      PowNonZero(b, -e);
      1.0 / Pow(b, -e)
  }

  /** A power and the power with the opposite exponent are reciprocals. */
  lemma PowIntReciprocal(b: real, e: int)
    requires b != 0.0
    ensures PowInt(b, e) * PowInt(b, -e) == 1.0
  {
    if e == 0 {
    } else if e > 0 {
      assert PowInt(b, -e) * Pow(b, e) == 1.0;
    }
  }

  predicate IsDigit(c: char) {
    '0' <= c <= '9'
  }

  predicate AllDigits(s: string) {
    forall i :: 0 <= i < |s| ==> IsDigit(s[i])
  }

  function DigitValue(c: char): nat
    requires IsDigit(c)
  {
    c as int - '0' as int
  }

  function DigitChar(d: nat): (c: char)
    requires d < 10
    ensures IsDigit(c) && DigitValue(c) == d
  {
    ('0' as int + d) as char
  }

  /** The value of a string of decimal digits, most significant first. */
  function DigitsValue(s: string): nat
    requires AllDigits(s)
    decreases |s|
  {
    if |s| == 0 then 0 else DigitsValue(s[..|s| - 1]) * 10 + DigitValue(s[|s| - 1])
  }

  /** A non-empty run of decimal digits and its value. */
  function ParseNat(s: string): (r: Option<nat>)
    ensures r.Some? <==> |s| > 0 && AllDigits(s)
  {
    if |s| > 0 && AllDigits(s) then Some(DigitsValue(s)) else None
  }

  /** The text after an optional leading `-` or `+`. */
  function Unsigned(s: string): (u: string)
    ensures |u| <= |s| && s == s[..|s| - |u|] + u
  {
    if |s| > 0 && (s[0] == '-' || s[0] == '+') then s[1..] else s
  }

  /** The text `int()` accepts here: an optional sign, then at least one digit. */
  predicate IntSyntax(s: string) {
    |Unsigned(s)| > 0 && AllDigits(Unsigned(s))
  }

  /** Unsigned text with one point and digits on both sides of it, at least one digit in all. */
  predicate PointDecimal(u: string) {
    exists k :: 0 <= k < |u| && u[k] == '.' && AllDigits(u[..k]) && AllDigits(u[k + 1..]) && |u| > 1
  }

  /** The text `float()` accepts here: an optional sign, then digits or a pointed decimal. */
  predicate DecimalSyntax(s: string) {
    IntSyntax(s) || PointDecimal(Unsigned(s))
  }

  /** The shortest decimal spelling of `n`. */
  function NatText(n: nat): (t: string)
    decreases n
    ensures |t| >= 1 && AllDigits(t)
  {
    if n < 10 then [DigitChar(n)] else NatText(n / 10) + [DigitChar(n % 10)]
  }

  /** Reading back the decimal spelling of `n` gives `n`. */
  lemma {:induction false} ParseNatText(n: nat)
    decreases n
    ensures ParseNat(NatText(n)) == Some(n)
  {
    var t := NatText(n);
    if n < 10 {
      assert t[..|t| - 1] == [];
    } else {
      ParseNatText(n / 10);
      assert t[..|t| - 1] == NatText(n / 10);
      assert DigitsValue(t) == DigitsValue(NatText(n / 10)) * 10 + n % 10;
    }
  }

  /** Python's `int(s)`: an optional sign followed by decimal digits. */
  function ParseInt(s: string): (r: Option<int>)
    ensures r.Some? ==> |s| > 0
    ensures r.Some? && r.value < 0 ==> s[0] == '-'
  {
    if |s| > 0 && s[0] == '-' then
      match ParseNat(s[1..])
      case Some(n) => Some(-(n as int))
      case None => None
    else if |s| > 0 && s[0] == '+' then
      match ParseNat(s[1..])
      case Some(n) => Some(n)
      case None => None
    else
      match ParseNat(s)
      case Some(n) => Some(n)
      case None => None
  }

  /**
   * `int()` accepts exactly an optional sign followed by digits, and reads
   * the digits' value, negated after a minus sign.
   */
  lemma ParseIntSyntax(s: string)
    ensures ParseInt(s).Some? <==> IntSyntax(s)
    ensures ParseInt(s).Some? ==>
      ParseInt(s).value == if s[0] == '-' then -(DigitsValue(Unsigned(s)) as int) else DigitsValue(Unsigned(s)) as int
  {
  }

  /** The decimal spelling of `i`, with a minus sign when negative. */
  function IntText(i: int): string {
    if i < 0 then "-" + NatText(-i) else NatText(i)
  }

  /** Reading back the spelling of an integer gives the integer. */
  lemma ParseIntText(i: int)
    ensures ParseInt(IntText(i)) == Some(i)
  {
    if i < 0 {
      ParseNatText(-i);
      assert IntText(i)[1..] == NatText(-i);
    } else {
      ParseNatText(i);
    }
  }

  /**
   * The decimal subset of Python's `float(s)`: an optional sign, digits, and
   * an optional `.` followed by digits, with at least one digit overall.
   */
  function ParseDecimal(s: string): (r: Option<real>)
    ensures r.Some? ==> |s| > 0
    ensures r.Some? && r.value < 0.0 ==> s[0] == '-'
    ensures ParseNat(s).Some? ==> r == Some(ParseNat(s).value as real)
    ensures |s| > 0 && s[0] == '+' ==> r == UnsignedDecimal(s[1..])
  {
    if |s| > 0 && s[0] == '-' then
      match UnsignedDecimal(s[1..])
      case Some(x) => Some(-x)
      case None => None
    else if |s| > 0 && s[0] == '+' then UnsignedDecimal(s[1..])
    else UnsignedDecimal(s)
  }

  /** A leading plus sign leaves the unsigned reading unchanged: `float("+5")` is 5. */
  lemma PlusRead(s: string)
    ensures ParseDecimal("+" + s) == UnsignedDecimal(s)
  {
    assert ("+" + s)[1..] == s;
  }

  /** Digits with an optional fractional part; the value is never negative. */
  function UnsignedDecimal(s: string): (r: Option<real>)
    ensures r.Some? ==> r.value >= 0.0
    ensures ParseNat(s).Some? ==> r == Some(ParseNat(s).value as real)
  {
    match Text.FindFrom(s, ".", 0)
    case None =>
      if |s| > 0 && AllDigits(s) then Some(DigitsValue(s) as real) else None
    case Some(k) =>
      var whole := s[..k];
      var frac := s[k + 1..];
      assert s[k] == '.';
      if AllDigits(whole) && AllDigits(frac) && |whole| + |frac| > 0 then
        PowNonZero(10.0, |frac|);
        Some(DigitsValue(whole) as real + DigitsValue(frac) as real / Pow(10.0, |frac|))
      else None
  }

  /** The unsigned reader accepts exactly digits, or digits around a single point. */
  lemma UnsignedDecimalSyntax(s: string)
    ensures UnsignedDecimal(s).Some? <==> (|s| > 0 && AllDigits(s)) || PointDecimal(s)
  {
    match Text.FindFrom(s, ".", 0)
    case None => NoPoint(s);
    case Some(k) => FirstPoint(s, k);
  }

  /** `float()` accepts exactly an optional sign followed by digits or a pointed decimal. */
  lemma ParseDecimalSyntax(s: string)
    ensures ParseDecimal(s).Some? <==> DecimalSyntax(s)
  {
    UnsignedDecimalSyntax(Unsigned(s));
  }

  /** Text in which the search finds no point is not a pointed decimal. */
  lemma NoPoint(s: string)
    requires Text.FindFrom(s, ".", 0).None?
    ensures !PointDecimal(s)
  {
    forall k | 0 <= k < |s|
      ensures s[k] != '.'
    {
      PointOccurs(s, k);
    }
  }

  /**
   * With the first point at `k`, the text is not all digits, and it is a
   * pointed decimal exactly when digits surround that point.
   */
  lemma FirstPoint(s: string, k: nat)
    requires Text.FindFrom(s, ".", 0) == Some(k)
    ensures k < |s| && s[k] == '.' && !AllDigits(s)
    ensures PointDecimal(s) <==> AllDigits(s[..k]) && AllDigits(s[k + 1..]) && |s| > 1
  {
    FoundPoint(s, k);
    PointDecides(s, k);
  }

  /** The search's point is a point, and no point comes before it. */
  lemma FoundPoint(s: string, k: nat)
    requires Text.FindFrom(s, ".", 0) == Some(k)
    ensures k < |s| && s[k] == '.'
    ensures forall j :: 0 <= j < k ==> s[j] != '.'
  {
    PointOccurs(s, k);
    forall j | 0 <= j < k
      ensures s[j] != '.'
    {
      PointOccurs(s, j);
    }
  }

  /** The one-character pattern "." occurs at `j` iff the text holds a point there. */
  lemma PointOccurs(s: string, j: nat)
    ensures Text.OccursAt(s, ".", j) <==> j < |s| && s[j] == '.'
  {
    if j < |s| {
      assert s[j..j + 1] == [s[j]];
    }
  }

  /** Whether text is a pointed decimal is decided at its first point. */
  lemma PointDecides(s: string, k: nat)
    requires k < |s| && s[k] == '.'
    requires forall j :: 0 <= j < k ==> s[j] != '.'
    ensures !AllDigits(s)
    ensures PointDecimal(s) <==> AllDigits(s[..k]) && AllDigits(s[k + 1..]) && |s| > 1
  {
    if PointDecimal(s) {
      var k' :| 0 <= k' < |s| && s[k'] == '.' && AllDigits(s[..k']) && AllDigits(s[k' + 1..]) && |s| > 1;
      OnlyPoint(s, k, k');
    }
  }

  /** A point with no point before it, and a point with only digits before it, are the same point. */
  lemma OnlyPoint(s: string, k: nat, k': nat)
    requires k < |s| && k' < |s| && s[k] == '.' && s[k'] == '.'
    requires forall j :: 0 <= j < k ==> s[j] != '.'
    requires AllDigits(s[..k'])
    ensures k == k'
  {
    forall j | 0 <= j < k'
      ensures s[j] != '.'
    {
      assert s[j] == s[..k'][j];
    }
  }

  /** In digits, a point, then more digits, the first point is the one after the digits. */
  lemma PointAfterDigits(w: string, f: string)
    requires AllDigits(w)
    ensures Text.FindFrom(w + "." + f, ".", 0) == Some(|w|)
  {
    var s := w + "." + f;
    assert Text.OccursAt(s, ".", |w|) by {
      assert s[|w|..|w| + 1] == ".";
    }
    forall j: nat | j < |w|
      ensures !Text.OccursAt(s, ".", j)
    {
      assert s[j..j + 1] == [w[j]];
    }
  }

  /**
   * Python's `float` of digits, a point and digits: the whole part plus the
   * fraction digits read as an integer and divided by ten to their number;
   * a leading minus sign negates it.
   */
  lemma ParseDecimalFraction(w: string, f: string)
    requires AllDigits(w) && AllDigits(f) && |w| + |f| > 0
    ensures Pow(10.0, |f|) > 0.0
    ensures ParseDecimal(w + "." + f).Some?
    ensures ParseDecimal(w + "." + f).value ==
            DigitsValue(w) as real + DigitsValue(f) as real / Pow(10.0, |f|)
    ensures ParseDecimal("-" + w + "." + f).Some?
    ensures ParseDecimal("-" + w + "." + f).value == -ParseDecimal(w + "." + f).value
  {
    var s := w + "." + f;
    UnsignedFraction(w, f);
    assert s[0] != '-' && s[0] != '+' by {
      if |w| > 0 { assert s[0] == w[0]; } else { assert s[0] == '.'; }
    }
    UnsignedRead(s);
    NegatedRead(s);
    MinusOutside(w, f);
    PowNonZero(10.0, |f|);
  }

  /** The sign stays outside the digits, the point and the fraction. */
  lemma MinusOutside(w: string, f: string)
    ensures "-" + w + "." + f == "-" + (w + "." + f)
  {
  }

  /** Text without a sign is read unsigned. */
  lemma UnsignedRead(s: string)
    requires |s| > 0 && s[0] != '-' && s[0] != '+'
    ensures ParseDecimal(s) == UnsignedDecimal(s)
  {
  }

  /** A leading minus sign negates the unsigned reading. */
  lemma NegatedRead(s: string)
    requires UnsignedDecimal(s).Some?
    ensures ParseDecimal("-" + s).Some? && ParseDecimal("-" + s).value == -UnsignedDecimal(s).value
  {
    assert ("-" + s)[1..] == s;
  }

  /** The unsigned reading of digits, a point and digits. */
  lemma UnsignedFraction(w: string, f: string)
    requires AllDigits(w) && AllDigits(f) && |w| + |f| > 0
    ensures Pow(10.0, |f|) != 0.0
    ensures UnsignedDecimal(w + "." + f).Some?
    ensures UnsignedDecimal(w + "." + f).value ==
            DigitsValue(w) as real + DigitsValue(f) as real / Pow(10.0, |f|)
  {
    var s := w + "." + f;
    PointAfterDigits(w, f);
    assert s[..|w|] == w && s[|w| + 1..] == f;
    UnsignedAtPoint(s, |w|);
    var a, b, p := DigitsValue(w) as real, DigitsValue(f) as real, Pow(10.0, |f|);
    assert DigitsValue(s[..|w|]) as real == a;
    assert DigitsValue(s[|w| + 1..]) as real == b;
    assert Pow(10.0, |s[|w| + 1..]|) == p;
    assert UnsignedDecimal(s).Some?;
    assert UnsignedDecimal(s).value == a + b / p;
  }

  /** The unsigned reading of text whose first point is at `k`. */
  lemma UnsignedAtPoint(s: string, k: nat)
    requires Text.FindFrom(s, ".", 0) == Some(k)
    requires AllDigits(s[..k]) && AllDigits(s[k + 1..]) && |s| > 1
    ensures Pow(10.0, |s[k + 1..]|) != 0.0
    ensures UnsignedDecimal(s) ==
            Some(DigitsValue(s[..k]) as real + DigitsValue(s[k + 1..]) as real / Pow(10.0, |s[k + 1..]|))
  {
    PowNonZero(10.0, |s[k + 1..]|);
  }

  /** A word is neither an integer nor a decimal. */
  lemma WordRejected()
    ensures ParseInt("abc").None? && ParseDecimal("abc").None?
  {
    var t := "abc";
    assert t[0] == 'a';
    NonNumericFirstRejected(t);
  }

  /** Text that starts with anything but a sign, a digit or a point is no number. */
  lemma NonNumericFirstRejected(t: string)
    requires |t| > 0 && !IsDigit(t[0]) && t[0] != '-' && t[0] != '+' && t[0] != '.'
    ensures ParseInt(t).None? && ParseDecimal(t).None?
  {
    assert Unsigned(t) == t;
    assert !IntSyntax(t);
    assert !PointDecimal(t) by {
      forall k | 0 <= k < |t| && t[k] == '.' ensures !AllDigits(t[..k]) {
        assert t[..k][0] == t[0];
      }
    }
    ParseIntSyntax(t);
    ParseDecimalSyntax(t);
  }

  /** A second point makes a decimal unreadable. */
  lemma SecondPointRejected()
    ensures ParseDecimal("1.2.3").None?
  {
    var t := "1.2.3";
    ParseDecimalSyntax(t);
    assert Unsigned(t) == t;
    assert !IntSyntax(t) by {
      assert !IsDigit(t[1]);
    }
    assert !PointDecimal(t) by {
      assert t[1] == '.' && t[0] != '.';
      PointDecides(t, 1);
      assert !IsDigit(t[2..][1]);
    }
  }

  /** A threshold as it is written on the command line. */
  lemma DecimalExample()
    ensures ParseDecimal("50.5").Some? && ParseDecimal("50.5").value == 50.5
  {
    assert "50" + "." + "5" == "50.5";
    assert DigitsValue("50") as real + DigitsValue("5") as real / Pow(10.0, 1) == 50.5 by {
      assert DigitsValue("50") == 50 && DigitsValue("5") == 5 && Pow(10.0, 1) == 10.0;
    }
    ParseDecimalFraction("50", "5");
  }

  /** A base written with leading zeros in its fraction. */
  lemma SmallDecimalExample()
    ensures ParseDecimal("0.001").Some? && ParseDecimal("0.001").value == 0.001
  {
    assert "0" + "." + "001" == "0.001";
    assert DigitsValue("0") as real + DigitsValue("001") as real / Pow(10.0, 3) == 0.001 by {
      assert DigitsValue("0") == 0 && DigitsValue("001") == 1 && Pow(10.0, 3) == 1000.0;
    }
    ParseDecimalFraction("0", "001");
  }
}

=== FILE: objective.dfy ===
/**
 * One trial as the optimiser sees it (`keras_run` in hyperpower.py): read
 * the settings, build the executable, then either train and report the
 * classification error, or profile first and report the objective together
 * with the constraint margin, skipping training when the hardware
 * constraint is already violated.
 */
module Objective {
  import opened Wrappers
  import opened Protocol
  import opened Numbers
  import opened Setup
  import opened Transforms
  import opened Instantiation

  /** What profiling one inference batch measures. */
  datatype Metrics = Metrics(runtime: real, power: real, energy: real)

  /** A reported number, the NaN that marks an infeasible point, or the absent value. */
  datatype Value = Real(x: real) | NaN | Null

  /** The scalar error of an unconstrained trial, or the keyed report of a constrained one. */
  datatype Answer = Scalar(error: real) | Report(values: map<string, Value>)

  /** The answer, and whether the trial trained the network and profiled it. */
  datatype Trial = Trial(answer: Answer, trained: bool, profiled: bool)

  /** The oracles a trial calls: training returns the test accuracy; profiling returns the metrics. */
  datatype Runner = Runner(train: (string, int) -> real, profile: string -> Metrics)

  /** The classification error, in percent, of a test accuracy in [0, 1]. */
  function ErrorPercent(accuracy: real): (e: real)
    ensures accuracy == 1.0 - e / 100.0
    ensures 0.0 <= accuracy <= 1.0 ==> 0.0 <= e <= 100.0
    ensures accuracy == 1.0 <==> e == 0.0
  {
    100.0 - accuracy * 100.0
  }

  /** The hardware metric called `name`; any other name leaves the value unset. */
  function Metric(m: Metrics, name: string): (v: Value)
    ensures v.Null? <==> name != "energy" && name != "power" && name != "runtime"
    ensures !v.NaN?
    ensures v.Real? ==> v.x in {m.runtime, m.power, m.energy}
    ensures name == "energy" ==> v == Real(m.energy)
    ensures name == "power" ==> v == Real(m.power)
    ensures name == "runtime" ==> v == Real(m.runtime)
  {
    if name == "energy" then Real(m.energy)
    else if name == "power" then Real(m.power)
    else if name == "runtime" then Real(m.runtime)
    else Null
  }

  /** The two-entry report; when both keys coincide the constraint entry wins. */
  function Pair(optimize: string, objective: Value, constraint: string, margin: real): (a: Answer)
    ensures a.Report? && a.values.Keys == {optimize, constraint}
    ensures a.values[constraint] == Real(margin)
    ensures optimize != constraint ==> a.values[optimize] == objective
  {
    Report(map[optimize := objective][constraint := Real(margin)])
  }

  /** The constrained trial once the executable exists and the threshold is known. */
  function ConstrainedRun(s: Settings, threshold: real, net: string, epochs: int, run: Runner)
    : (r: Result<Trial, Fault>)
    ensures r.Ok? ==> r.value.profiled && r.value.answer.Report?
    ensures r.Ok? ==> s.constraint in r.value.answer.values
    ensures r.Ok? ==> r.value.answer.values.Keys == {s.optimize, s.constraint}
    ensures s.optimize != "error" ==> r.Ok? && r.value.trained
    ensures s.optimize == "error" ==>
      (r.Err? <==> Metric(run.profile(net), s.constraint).Null?)
    ensures s.optimize == "error" && r.Ok? ==>
      r.value.answer.values[s.constraint] == Real(threshold - Metric(run.profile(net), s.constraint).x) &&
      (r.value.trained <==> Metric(run.profile(net), s.constraint).x < threshold)
    ensures s.optimize == "error" && r.Ok? && s.constraint != s.optimize ==>
      r.value.answer.values[s.optimize] ==
        (if r.value.trained then Real(ErrorPercent(run.train(net, epochs))) else NaN)
    ensures s.optimize != "error" ==>
      r.value.answer.values[s.constraint] == Real(threshold - ErrorPercent(run.train(net, epochs)))
    ensures s.optimize != "error" && s.constraint != s.optimize ==>
      r.value.answer.values[s.optimize] == Metric(run.profile(net), s.optimize)
  {
    var m := run.profile(net);
    if s.optimize == "error" then
      var c := Metric(m, s.constraint);
      if c.Real? && c.x >= threshold then
        Ok(Trial(Pair(s.optimize, NaN, s.constraint, threshold - c.x), false, true))
      else
        var e := ErrorPercent(run.train(net, epochs));
        if c.Null? then Err(UnknownConstraintMetric(s.constraint))
        else Ok(Trial(Pair(s.optimize, Real(e), s.constraint, threshold - c.x), true, true))
    else
      var o := Metric(m, s.optimize);
      var e := ErrorPercent(run.train(net, epochs));
      Ok(Trial(Pair(s.optimize, o, s.constraint, threshold - e), true, true))
  }

  /** The constraint threshold of constrained settings, parsed as a decimal. */
  function Threshold(s: Settings): (r: Result<real, Fault>)
    ensures s.constraintVal.None? <==> r == Err(MissingConstraintValue)
    ensures s.constraintVal.Some? ==>
      (r.Ok? <==> ParseDecimal(s.constraintVal.value).Some?) &&
      (r.Err? ==> r.error == BadNumber(s.constraintVal.value))
    ensures r.Ok? ==> r.value == ParseDecimal(s.constraintVal.value).value
  {
    match s.constraintVal
    case None => Err(MissingConstraintValue)
    case Some(t) =>
      match ParseDecimal(t)
      case None => Err(BadNumber(t))
      case Some(x) => Ok(x)
  }

  /**
   * One trial: the epoch count and, in constrained mode, the threshold are
   * parsed before the executable is generated; an unconstrained trial
   * trains and reports its error.
   */
  function KerasRun(s: Settings, defs: map<string, Decl>, ps: seq<Binding>, template: string,
                    num: Numerics, show: real -> string, run: Runner): (r: Result<Trial, Fault>)
    ensures ParseInt(s.epochs).None? ==> r == Err(BadNumber(s.epochs))
    ensures r.Ok? ==> ParseInt(s.epochs).Some? &&
                      GenerateExecutable(defs, ps, template, num, show).Ok?
    ensures r.Ok? ==> (r.value.profiled <==> s.mode == Constrained)
    ensures r.Ok? && s.mode == Unconstrained ==> r.value.trained && r.value.answer.Scalar?
    ensures r.Ok? && s.mode == Unconstrained ==>
      r.value.answer == Scalar(ErrorPercent(run.train(GenerateExecutable(defs, ps, template, num, show).value,
                                                      ParseInt(s.epochs).value)))
    ensures ParseInt(s.epochs).Some? && s.mode == Constrained && Threshold(s).Err? ==>
      r == Err(Threshold(s).error)
    ensures ParseInt(s.epochs).Some? && (s.mode == Constrained ==> Threshold(s).Ok?) &&
            GenerateExecutable(defs, ps, template, num, show).Err? ==>
      r == Err(GenerateExecutable(defs, ps, template, num, show).error)
    ensures ParseInt(s.epochs).Some? && s.mode == Constrained && Threshold(s).Ok? &&
            GenerateExecutable(defs, ps, template, num, show).Ok? ==>
      r == ConstrainedRun(s, Threshold(s).value, GenerateExecutable(defs, ps, template, num, show).value,
                          ParseInt(s.epochs).value, run)
  {
    match ParseInt(s.epochs)
    case None => Err(BadNumber(s.epochs))
    case Some(epochs) =>
      var th := if s.mode == Constrained then Threshold(s) else Ok(0.0);
      if th.Err? then Err(th.error)
      else
        match GenerateExecutable(defs, ps, template, num, show)
        case Err(e) => Err(e)
        case Ok(net) =>
          if s.mode == Unconstrained then
            Ok(Trial(Scalar(ErrorPercent(run.train(net, epochs))), true, false))
          else
            assert s.mode == Constrained;
            ConstrainedRun(s, th.value, net, epochs, run)
  }

  /**
   * When error is optimised under a hardware constraint, the network is
   * trained exactly when the measured metric is below the threshold, i.e.
   * when the reported margin is positive; a violated point reports NaN.
   */
  lemma TrainedIffMarginPositive(s: Settings, threshold: real, net: string, epochs: int, run: Runner)
    requires s.optimize == "error"
    requires ConstrainedRun(s, threshold, net, epochs, run).Ok?
    ensures var t := ConstrainedRun(s, threshold, net, epochs, run).value;
            var margin := threshold - Metric(run.profile(net), s.constraint).x;
            t.answer.values[s.constraint] == Real(margin) &&
            (t.trained <==> margin > 0.0) &&
            (!t.trained <==> t.answer.values[s.optimize] == NaN)
  {
    var c := Metric(run.profile(net), s.constraint);
    assert s.constraint != s.optimize;
  }

  /** Consistent settings with parseable numbers fail only in generation or an unknown metric. */
  lemma ConsistentRunFaults(s: Settings, defs: map<string, Decl>, ps: seq<Binding>, template: string,
                            num: Numerics, show: real -> string, run: Runner)
    requires Consistent(s)
    requires ParseInt(s.epochs).Some?
    requires s.mode == Constrained ==> ParseDecimal(s.constraintVal.value).Some?
    requires GenerateExecutable(defs, ps, template, num, show).Ok?
    ensures var r := KerasRun(s, defs, ps, template, num, show, run);
            r.Err? ==> s.mode == Constrained && s.optimize == "error" &&
                       r.error == UnknownConstraintMetric(s.constraint)
  {
  }

  /**
   * Under each of the three hardware constraints, optimising error, the
   * trial succeeds and compares the threshold with the matching field of
   * the profiled measurement: it reports their difference and trains the
   * network exactly when that field is below the threshold.
   */
  lemma HardwareConstraintRun(s: Settings, threshold: real, net: string, epochs: int, run: Runner)
    requires s.optimize == "error"
    requires s.constraint == "energy" || s.constraint == "power" || s.constraint == "runtime"
    ensures ConstrainedRun(s, threshold, net, epochs, run).Ok?
    ensures var t := ConstrainedRun(s, threshold, net, epochs, run).value;
            var m := run.profile(net);
            && (s.constraint == "energy" ==>
                  t.answer.values["energy"] == Real(threshold - m.energy) && (t.trained <==> m.energy < threshold))
            && (s.constraint == "power" ==>
                  t.answer.values["power"] == Real(threshold - m.power) && (t.trained <==> m.power < threshold))
            && (s.constraint == "runtime" ==>
                  t.answer.values["runtime"] == Real(threshold - m.runtime) && (t.trained <==> m.runtime < threshold))
  {
  }

  /** A whole-number threshold `n` written in decimal reads as `n`. */
  lemma ThresholdWhole(s: Settings, n: nat)
    requires s.constraintVal == Some(NatText(n))
    ensures Threshold(s) == Ok(n as real)
  {
    ParseNatText(n);
  }

  /** A threshold with a leading plus sign reads as the text after the sign. */
  lemma ThresholdPlus(s: Settings, t: string)
    requires s.constraintVal == Some("+" + t)
    ensures Threshold(s).Ok? <==> UnsignedDecimal(t).Some?
    ensures Threshold(s).Ok? ==> Threshold(s).value == UnsignedDecimal(t).value
  {
    PlusRead(t);
  }

  /** A threshold written with a fractional part, with or without a minus sign, reads as its decimal value. */
  lemma ThresholdFraction(s: Settings, negative: bool, w: string, f: string)
    requires AllDigits(w) && AllDigits(f) && |w| + |f| > 0
    requires s.constraintVal == Some((if negative then "-" else "") + w + "." + f)
    ensures Pow(10.0, |f|) > 0.0
    ensures Threshold(s).Ok?
    ensures var x := DigitsValue(w) as real + DigitsValue(f) as real / Pow(10.0, |f|);
            Threshold(s).value == if negative then -x else x
  {
    ParseDecimalFraction(w, f);
    if negative {
      assert s.constraintVal.value == "-" + w + "." + f by {
        assert "" + w == w;
      }
    } else {
      assert s.constraintVal.value == w + "." + f by {
        assert "" + w == w;
      }
    }
  }

  /**
   * From the command line to the trial's answer: with parseable numbers and
   * an executable, an unconstrained search scores the error, and a
   * constrained one reports exactly the objective and the constraint, failing
   * only when error is optimised against a metric that is not measured.
   */
  lemma SetupToTrial(optimize: string, experiment: string, epochs: string,
                     constraint: Option<string>, constraintVal: Option<string>,
                     defs: map<string, Decl>, ps: seq<Binding>, template: string,
                     num: Numerics, show: real -> string, run: Runner)
    requires HyperpowerParams(optimize, experiment, epochs, constraint, constraintVal).Ok?
    requires ParseInt(epochs).Some?
    requires constraintVal.Some? ==> ParseDecimal(constraintVal.value).Some?
    requires GenerateExecutable(defs, ps, template, num, show).Ok?
    ensures var r := KerasRun(HyperpowerParams(optimize, experiment, epochs, constraint, constraintVal).value,
                              defs, ps, template, num, show, run);
            var net := GenerateExecutable(defs, ps, template, num, show).value;
            (constraint.None? ==>
               r == Ok(Trial(Scalar(ErrorPercent(run.train(net, ParseInt(epochs).value))), true, false))) &&
            (constraint.Some? ==>
               (r.Ok? <==> optimize != "error" || !Metric(run.profile(net), constraint.value).Null?) &&
               (r.Ok? ==> r.value.profiled && r.value.answer.values.Keys == {optimize, constraint.value}))
  {
  }

  /** An accuracy of 0.9 is an error of 10 percent, 0.82 one of 18 percent. */
  lemma ErrorExamples()
    ensures ErrorPercent(0.9) == 10.0 && ErrorPercent(0.82) == 18.0
  {
  }

  /**
   * Drawing 60 W against a 50 W power limit reports NaN error and a margin
   * of -10 without training.
   */
  lemma ViolatedExample(s: Settings, net: string, epochs: int, run: Runner)
    requires s.optimize == "error" && s.constraint == "power"
    requires run.profile(net).power == 60.0
    ensures ConstrainedRun(s, 50.0, net, epochs, run) ==
            Ok(Trial(Report(map["error" := NaN, "power" := Real(-10.0)]), false, true))
  {
    assert map["error" := NaN][ "power" := Real(-10.0)] == map["error" := NaN, "power" := Real(-10.0)];
  }

  /**
   * Minimising power with a 20 percent error limit: the report holds the
   * measured power and the margin 20 - error, and the network is trained.
   */
  lemma HardwareObjectiveExample(s: Settings, net: string, epochs: int, run: Runner)
    requires s.optimize == "power" && s.constraint == "error"
    requires run.profile(net).power == 45.0 && run.train(net, epochs) == 0.9
    ensures ConstrainedRun(s, 20.0, net, epochs, run) ==
            Ok(Trial(Report(map["power" := Real(45.0), "error" := Real(10.0)]), true, true))
  {
  }

  /**
   * A command line that optimises error with no constraint, one epoch and
   * a network reaching 90 percent accuracy scores 10.
   */
  lemma UnconstrainedExample(defs: map<string, Decl>, ps: seq<Binding>, template: string,
                             num: Numerics, show: real -> string, run: Runner)
    requires GenerateExecutable(defs, ps, template, num, show).Ok?
    requires run.train(GenerateExecutable(defs, ps, template, num, show).value, 1) == 0.9
    ensures var s := HyperpowerParams("error", "mnist", "1", None, None);
            s.Ok? && KerasRun(s.value, defs, ps, template, num, show, run) ==
                     Ok(Trial(Scalar(10.0), true, false))
  {
    assert ParseInt("1") == Some(1) by {
      assert ParseNat("1") == Some(1);
    }
  }
}

=== FILE: protocol.dfy ===
/**
 * The "HYPERPARAM" template protocol shared by the setup side and the
 * trial side: the marker that introduces a declaration in the model
 * definition, the placeholder that replaces it in the template, the parsed
 * declaration record, and the fatal errors of the whole pipeline.
 */
module Protocol {
  import opened Wrappers

  /** The marker that introduces an embedded declaration. */
  const Marker: string := "HYPERPARAM"

  /** The placeholder left in the template for the token `name`. */
  function Placeholder(name: string): (p: string)
    ensures |p| == |Marker| + 1 + |name|
    ensures p[..|Marker|] == Marker && p[|Marker|] == '_' && p[|Marker| + 1..] == name
  {
    Marker + "_" + name
  }

  /**
   * The record a declaration payload decodes to: its `type`, its `token`,
   * its optional `transform` code and its optional `min` / `max` bounds.
   * Decoding the payload text itself is left to a caller-supplied parser.
   */
  datatype Decl = Decl(kind: string, token: string, transform: Option<string>,
                       min: Option<real>, max: Option<real>)

  /** A declaration kind that the search-space description lists. */
  predicate IsVariable(d: Decl) {
    d.kind == "INT" || d.kind == "FLOAT"
  }

  /** Variable declarations must carry both bounds. */
  predicate HasBounds(d: Decl) {
    IsVariable(d) ==> d.min.Some? && d.max.Some?
  }

  /** Every way the setup phase or a trial aborts the search. */
  datatype Fault =
    | MissingConstraint                 // a hardware metric is optimised with no constraint
    | MissingConstraintValue            // constrained mode with no threshold
    | NoHyperparameters                 // no source line carries the marker
    | MalformedDeclaration(line: string)   // the marker does not occur exactly once on the line
    | UnreadablePayload(payload: string)   // the payload does not decode
    | DuplicateToken(token: string)     // a token name declared twice
    | MissingBounds(token: string)      // an INT or FLOAT declaration without min or max
    | EmptyTransform                    // a transform code that is the empty string
    | BadTransformArgument(code: string)  // the number after X, LOG or NEGEXP does not parse
    | MathDomain(code: string)          // log or power undefined for the value
    | EmptyValue                        // a suggested value with no element 0
    | UnknownParameter(name: string)    // a suggested parameter with no declaration
    | BadNumber(text: string)           // the epoch count or threshold does not parse
    | UnknownConstraintMetric(name: string)  // the margin is computed from an unset metric
}

=== FILE: setup.dfy ===
/**
 * The experiment settings recorded at setup (`hyperpower_params` in
 * gener_experiment.py): which metric is optimised, whether a constraint
 * applies, and its threshold.
 */
module Setup {
  import opened Wrappers
  import opened Protocol

  datatype ExecMode = Unconstrained | Constrained

  /**
   * The persisted settings every trial reads. `constraint` is the empty
   * string in unconstrained mode; `constraintVal` is present exactly in
   * constrained mode and is kept as the text the user gave.
   */
  datatype Settings = Settings(optimize: string, experiment: string, epochs: string,
                               constraint: string, mode: ExecMode,
                               constraintVal: Option<string>)

  /**
   * Chooses the execution mode from the command-line options. Optimising
   * error needs no constraint; optimising a hardware metric does; every
   * constraint needs a threshold.
   */
  function HyperpowerParams(optimize: string, experiment: string, epochs: string,
                            constraint: Option<string>, constraintVal: Option<string>)
    : (r: Result<Settings, Fault>)
    ensures r.Ok? <==> (optimize == "error" || constraint.Some?) &&
                       (constraint.Some? ==> constraintVal.Some?)
    ensures r == Err(MissingConstraint) <==> optimize != "error" && constraint.None?
    ensures r == Err(MissingConstraintValue) <==> constraint.Some? && constraintVal.None?
    ensures r.Ok? ==> r.value.optimize == optimize && r.value.experiment == experiment &&
                      r.value.epochs == epochs
    ensures r.Ok? && constraint.None? ==>
      r.value.mode == Unconstrained && r.value.constraint == "" && r.value.constraintVal.None?
    ensures r.Ok? && constraint.Some? ==>
      r.value.mode == Constrained && r.value.constraint == constraint.value &&
      r.value.constraintVal == constraintVal
  {
    if optimize == "error" && constraint.None? then
      Ok(Settings(optimize, experiment, epochs, "", Unconstrained, None))
    else if constraint.None? then
      Err(MissingConstraint)
    else if constraintVal.None? then
      Err(MissingConstraintValue)
    else
      Ok(Settings(optimize, experiment, epochs, constraint.value, Constrained, constraintVal))
  }

  /** Settings that setup can produce: the mode agrees with the fields it governs. */
  predicate Consistent(s: Settings) {
    match s.mode
    case Unconstrained => s.optimize == "error" && s.constraint == "" && s.constraintVal.None?
    case Constrained => s.constraintVal.Some?
  }

  /** Every accepted command line yields consistent settings. */
  lemma HyperpowerParamsConsistent(optimize: string, experiment: string, epochs: string,
                                   constraint: Option<string>, constraintVal: Option<string>)
    requires HyperpowerParams(optimize, experiment, epochs, constraint, constraintVal).Ok?
    ensures Consistent(HyperpowerParams(optimize, experiment, epochs, constraint, constraintVal).value)
  {
  }
}

=== FILE: templating.dfy ===
/**
 * The template builder (the loop of `spearmint_params` in
 * gener_experiment.py): the first occurrence of every registered payload
 * is replaced, in token order, by `_` and the token name, so that each
 * declaration `HYPERPARAM{...}` becomes the placeholder `HYPERPARAM_name`.
 */
module Templating {
  import opened Protocol
  import opened Text
  import opened Extraction

  /**
   * Applies the replacements for `tokens`, first to last. A source in which
   * no token's payload occurs is left as it is; so is any source when there
   * are no tokens.
   */
  function BuildTemplate(source: string, tokens: seq<TokenEntry>): (t: string)
    decreases |tokens|
    ensures (forall k :: 0 <= k < |tokens| ==> !Contains(source, tokens[k].description)) ==> t == source
  {
    if tokens == [] then source
    else
      assert forall k :: 1 <= k < |tokens| ==> tokens[k] == tokens[1..][k - 1];
      BuildTemplate(ReplaceFirst(source, tokens[0].description, "_" + tokens[0].name), tokens[1..])
  }

  /**
   * Each later token is processed on the text the earlier ones left: the
   * replacement for the last token is applied after all the others.
   */
  lemma {:induction false} BuildTemplateSnoc(source: string, tokens: seq<TokenEntry>, t: TokenEntry)
    decreases |tokens|
    ensures BuildTemplate(source, tokens + [t]) ==
            ReplaceFirst(BuildTemplate(source, tokens), t.description, "_" + t.name)
  {
    if tokens != [] {
      assert (tokens + [t])[1..] == tokens[1..] + [t];
      BuildTemplateSnoc(ReplaceFirst(source, tokens[0].description, "_" + tokens[0].name), tokens[1..], t);
    } else {
      assert ([] + [t])[1..] == [];
    }
  }

  /**
   * A declaration whose payload first occurs right after its marker turns
   * into the token's placeholder; the text around it is unchanged.
   */
  lemma DeclarationBecomesPlaceholder(pre: string, payload: string, post: string, name: string)
    requires FirstAt(pre + Marker + payload + post, payload, |pre| + |Marker|)
    ensures ReplaceFirst(pre + Marker + payload + post, payload, "_" + name) == pre + Placeholder(name) + post
  {
    ReplaceAt(pre + Marker, payload, post, "_" + name);
    PlaceholderSplice(pre, name, post);
  }

  /** The marker, the underscore and the name are the placeholder. */
  lemma PlaceholderSplice(pre: string, name: string, post: string)
    ensures (pre + Marker) + ("_" + name) + post == pre + Placeholder(name) + post
  {
    ConcatAssoc(pre, Marker, "_" + name);
  }
}

=== FILE: text.dfy ===
/**
 * The string operations the pipeline is built from: substring occurrence,
 * Python's `str.replace(old, new, 1)`, splitting a source into lines, and
 * Python's `str.split(sep)` unpacked into exactly two parts.
 */
module Text {
  import opened Wrappers

  /** `pat` occurs in `s` starting at index `i`. */
  predicate OccursAt(s: string, pat: string, i: nat) {
    i + |pat| <= |s| && s[i..i + |pat|] == pat
  }

  predicate Contains(s: string, pat: string) {
    exists i: nat | i <= |s| :: OccursAt(s, pat, i)
  }

  /** `i` is the leftmost index at which `pat` occurs in `s`. */
  predicate FirstAt(s: string, pat: string, i: nat) {
    OccursAt(s, pat, i) && forall j: nat :: j < i ==> !OccursAt(s, pat, j)
  }

  /**
   * The leftmost occurrence of `pat` in `s` at or after `from`, scanning
   * left to right as `str.find` does.
   */
  function FindFrom(s: string, pat: string, from: nat): (r: Option<nat>)
    decreases |s| - from
    ensures r.Some? ==> from <= r.value && OccursAt(s, pat, r.value)
    ensures r.Some? ==> forall j: nat :: from <= j < r.value ==> !OccursAt(s, pat, j)
    ensures r.None? ==> forall j: nat :: from <= j ==> !OccursAt(s, pat, j)
  {
    if |s| < from + |pat| then None
    else if s[from..from + |pat|] == pat then Some(from)
    else FindFrom(s, pat, from + 1)
  }

  /**
   * Python's `s.replace(pat, rep, 1)`: the leftmost occurrence of `pat` is
   * replaced by `rep`; with no occurrence `s` comes back unchanged. Here an
   * empty `pat` occurs at index 0, so `rep` is prepended; Python 2 instead
   * returns an empty `s` unchanged in that case. Every pattern this model
   * replaces is a placeholder or a decoded payload, so the case is not
   * exercised by it.
   */
  function ReplaceFirst(s: string, pat: string, rep: string): (r: string)
    decreases |s|
    ensures !Contains(s, pat) ==> r == s
    ensures forall i: nat :: FirstAt(s, pat, i) ==> r == s[..i] + rep + s[i + |pat|..]
  {
    if |s| < |pat| then s
    else if s[..|pat|] == pat then
      assert OccursAt(s, pat, 0);
      rep + s[|pat|..]
    else
      var tail := ReplaceFirst(s[1..], pat, rep);
      ReplaceFirstStep(s, pat, rep, tail);
      [s[0]] + tail
  }

  /** One step of the scan: `s` does not start with `pat`, so the result is
      `s[0]` followed by the replacement within `s[1..]`. */
  lemma ReplaceFirstStep(s: string, pat: string, rep: string, tail: string)
    requires |pat| <= |s| && s[..|pat|] != pat
    requires !Contains(s[1..], pat) ==> tail == s[1..]
    requires forall i: nat :: FirstAt(s[1..], pat, i) ==> tail == s[1..][..i] + rep + s[1..][i + |pat|..]
    ensures !Contains(s, pat) ==> [s[0]] + tail == s
    ensures forall i: nat :: FirstAt(s, pat, i) ==> [s[0]] + tail == s[..i] + rep + s[i + |pat|..]
  {
    OccursSuffix(s, pat, 1);
    assert !OccursAt(s, pat, 0);
    if !Contains(s, pat) {
      assert [s[0]] + s[1..] == s;
    }
    forall i: nat | FirstAt(s, pat, i)
      ensures [s[0]] + tail == s[..i] + rep + s[i + |pat|..]
    {
      assert 1 <= i;
      forall j: nat | j < i - 1
        ensures !OccursAt(s[1..], pat, j)
      {
        assert !OccursAt(s, pat, j + 1);
      }
      assert FirstAt(s[1..], pat, i - 1);
      assert [s[0]] + s[1..][..i - 1] == s[..i];
      assert s[1..][i - 1 + |pat|..] == s[i + |pat|..];
    }
  }

  /** Replacing the leftmost occurrence when it is known to sit at `|head|`. */
  lemma ReplaceAt(head: string, pat: string, tail: string, rep: string)
    requires FirstAt(head + pat + tail, pat, |head|)
    ensures ReplaceFirst(head + pat + tail, pat, rep) == head + rep + tail
  {
    var s := head + pat + tail;
    assert s[..|head|] == head;
    assert s[|head| + |pat|..] == tail;
  }

  /** `ReplaceAt` with the text after the pattern written in three parts. */
  lemma ReplaceAtBefore(head: string, pat: string, mid: string, q: string, tail: string, rep: string)
    requires FirstAt(head + pat + mid + q + tail, pat, |head|)
    ensures ReplaceFirst(head + pat + mid + q + tail, pat, rep) == head + rep + mid + q + tail
  {
    var rest := mid + q + tail;
    assert head + pat + mid + q + tail == head + pat + rest;
    ReplaceAt(head, pat, rest, rep);
    assert head + rep + rest == head + rep + mid + q + tail;
  }

  /** The leftmost-occurrence characterisation through `FindFrom`. */
  lemma ReplaceFirstAtFind(s: string, pat: string, rep: string)
    ensures FindFrom(s, pat, 0).None? ==> ReplaceFirst(s, pat, rep) == s
    ensures FindFrom(s, pat, 0).Some? ==>
      ReplaceFirst(s, pat, rep) ==
      s[..FindFrom(s, pat, 0).value] + rep + s[FindFrom(s, pat, 0).value + |pat|..]
  {
    var f := FindFrom(s, pat, 0);
    if f.Some? {
      assert FirstAt(s, pat, f.value);
    } else {
      assert !Contains(s, pat);
    }
  }

  /** Occurrences in the suffix `s[k..]` are occurrences in `s` from `k` on. */
  lemma OccursSuffix(s: string, pat: string, k: nat)
    requires k <= |s|
    ensures forall j: nat :: OccursAt(s[k..], pat, j) <==> OccursAt(s, pat, k + j)
  {
    forall j: nat
      ensures OccursAt(s[k..], pat, j) <==> OccursAt(s, pat, k + j)
    {
      if j + |pat| <= |s[k..]| {
        assert s[k..][j..j + |pat|] == s[k + j..k + j + |pat|];
      }
    }
  }

  /**
   * Python's `a, b = s.split(sep)`: the unpacking succeeds only when `sep`
   * occurs exactly once, searching again after the first occurrence.
   */
  function SplitOnce(s: string, sep: string): (r: Option<(string, string)>)
    requires |sep| > 0
    ensures r.Some? ==> s == r.value.0 + sep + r.value.1
    ensures r.Some? ==> !Contains(r.value.0, sep) && !Contains(r.value.1, sep)
    ensures forall i: nat :: FirstAt(s, sep, i) && !Contains(s[i + |sep|..], sep) ==>
      r == Some((s[..i], s[i + |sep|..]))
    ensures r.None? ==> !Contains(s, sep) || forall i: nat :: FirstAt(s, sep, i) ==> Contains(s[i + |sep|..], sep)
  {
    match FindFrom(s, sep, 0)
    case None => None
    case Some(i) =>
      SplitAtFirst(s, sep, i);
      if FindFrom(s, sep, i + |sep|).Some? then None
      else Some((s[..i], s[i + |sep|..]))
  }

  /** What is known once the first occurrence of `sep` is at `i`. */
  lemma SplitAtFirst(s: string, sep: string, i: nat)
    requires |sep| > 0 && FirstAt(s, sep, i)
    ensures forall k: nat :: FirstAt(s, sep, k) ==> k == i
    ensures s == s[..i] + sep + s[i + |sep|..]
    ensures !Contains(s[..i], sep)
    ensures FindFrom(s, sep, i + |sep|).Some? <==> Contains(s[i + |sep|..], sep)
  {
    assert s[i..i + |sep|] == sep;
    assert s == s[..i] + s[i..i + |sep|] + s[i + |sep|..];
    NothingBeforeFirst(s, sep, i);
    FindFromSuffix(s, sep, i + |sep|);
  }

  /** Searching from `m` finds something iff the suffix from `m` contains the pattern. */
  lemma FindFromSuffix(s: string, pat: string, m: nat)
    requires m <= |s|
    ensures FindFrom(s, pat, m).Some? <==> Contains(s[m..], pat)
  {
    OccursSuffix(s, pat, m);
    if FindFrom(s, pat, m).Some? {
      var j := FindFrom(s, pat, m).value;
      assert OccursAt(s[m..], pat, j - m);
    } else {
      forall j: nat | j <= |s[m..]|
        ensures !OccursAt(s[m..], pat, j)
      {
        assert !OccursAt(s, pat, m + j);
      }
    }
  }

  /** Before the leftmost occurrence of a non-empty pattern, the text does not contain it. */
  lemma NothingBeforeFirst(s: string, pat: string, i: nat)
    requires |pat| > 0 && FirstAt(s, pat, i)
    ensures !Contains(s[..i], pat)
  {
    var p := s[..i];
    forall j: nat | j <= |p|
      ensures !OccursAt(p, pat, j)
    {
      if j + |pat| <= |p| {
        assert p[j..j + |pat|] == s[j..j + |pat|];
        assert !OccursAt(s, pat, j);
      }
    }
  }

  /** Splits `s` at every newline, as a line-anchored regular expression sees it. */
  function SplitLines(s: string): (ls: seq<string>)
    decreases |s|
    ensures |ls| >= 1
    ensures forall k :: 0 <= k < |ls| ==> '\n' !in ls[k]
  {
    if |s| == 0 then [""]
    else
      var rest := SplitLines(s[1..]);
      if s[0] == '\n' then [""] + rest
      else [[s[0]] + rest[0]] + rest[1..]
  }

  /** Joins lines with newlines. */
  function JoinLines(ls: seq<string>): string
    requires |ls| >= 1
    decreases |ls|
  {
    if |ls| == 1 then ls[0] else ls[0] + "\n" + JoinLines(ls[1..])
  }

  /** Splitting loses nothing: joining the lines gives back the text. */
  lemma {:induction false} JoinSplitLines(s: string)
    decreases |s|
    ensures JoinLines(SplitLines(s)) == s
  {
    if |s| > 0 {
      var rest := SplitLines(s[1..]);
      JoinSplitLines(s[1..]);
      if s[0] == '\n' {
        assert JoinLines([""] + rest) == "" + "\n" + JoinLines(rest);
      } else if |rest| == 1 {
        assert SplitLines(s) == [[s[0]] + rest[0]];
      } else {
        var ls := SplitLines(s);
        assert ls[1..] == rest[1..];
        assert JoinLines(ls) == [s[0]] + rest[0] + "\n" + JoinLines(rest[1..]);
      }
    }
  }

  /** Text without a newline is a single line. */
  lemma {:induction false} SplitLinesSingle(l: string)
    requires '\n' !in l
    decreases |l|
    ensures SplitLines(l) == [l]
  {
    if |l| > 0 {
      assert '\n' !in l[1..] by {
        assert forall c :: c in l[1..] ==> c in l;
      }
      SplitLinesSingle(l[1..]);
      assert [l[0]] + l[1..] == l;
    }
  }

  /** A newline-free line followed by a newline starts the split with that line. */
  lemma {:induction false} SplitLinesCons(l: string, rest: string)
    requires '\n' !in l
    decreases |l|
    ensures SplitLines(l + "\n" + rest) == [l] + SplitLines(rest)
  {
    var s := l + "\n" + rest;
    if |l| == 0 {
      assert s[0] == '\n' && s[1..] == rest;
    } else {
      assert '\n' !in l[1..] by {
        assert forall c :: c in l[1..] ==> c in l;
      }
      assert s[0] == l[0] && s[1..] == l[1..] + "\n" + rest;
      SplitLinesCons(l[1..], rest);
      assert [l[0]] + l[1..] == l;
    }
  }

  /** Joining newline-free lines and splitting again gives the lines back. */
  lemma {:induction false} SplitJoinLines(ls: seq<string>)
    requires |ls| >= 1 && forall k :: 0 <= k < |ls| ==> '\n' !in ls[k]
    decreases |ls|
    ensures SplitLines(JoinLines(ls)) == ls
  {
    if |ls| == 1 {
      SplitLinesSingle(ls[0]);
    } else {
      SplitJoinLines(ls[1..]);
      SplitLinesCons(ls[0], JoinLines(ls[1..]));
      assert [ls[0]] + ls[1..] == ls;
    }
  }

  /** The lines that contain `pat`, in their original order. */
  function LinesWith(ls: seq<string>, pat: string): (r: seq<string>)
    ensures |r| <= |ls|
    ensures forall l :: l in r <==> l in ls && Contains(l, pat)
  {
    if |ls| == 0 then []
    else if Contains(ls[0], pat) then [ls[0]] + LinesWith(ls[1..], pat)
    else LinesWith(ls[1..], pat)
  }

  /** The search of a single line keeps it exactly when it contains `pat`. */
  lemma LinesWithOne(l: string, pat: string)
    ensures LinesWith([l], pat) == if Contains(l, pat) then [l] else []
  {
    assert [l][1..] == [];
  }

  /**
   * The search is a filter: searching two blocks of lines one after the
   * other gives the matches of the first followed by those of the second,
   * so order and repeated lines are kept.
   */
  lemma {:induction false} LinesWithAppend(a: seq<string>, b: seq<string>, pat: string)
    decreases |a|
    ensures LinesWith(a + b, pat) == LinesWith(a, pat) + LinesWith(b, pat)
  {
    if a == [] {
      assert a + b == b;
    } else {
      assert (a + b)[0] == a[0];
      assert (a + b)[1..] == a[1..] + b;
      LinesWithAppend(a[1..], b, pat);
      if Contains(a[0], pat) {
        assert LinesWith(a + b, pat) == [a[0]] + (LinesWith(a[1..], pat) + LinesWith(b, pat));
      }
    }
  }
}

=== FILE: transforms.dfy ===
/**
 * The transform engine (`generate_keras_executable` in hyperpower.py,
 * first loop): maps the optimiser's raw suggestion for one parameter to the
 * value the model uses, according to the declaration's transform code.
 */
module Transforms {
  import opened Wrappers
  import opened Protocol
  import opened Numbers

  /**
   * Floating-point operations the model does not compute: Python's
   * `math.log(x, base)` and `b ** e` for a non-integral exponent. `None`
   * stands for the exception Python raises outside their domain.
   */
  datatype Numerics = Numerics(log: (real, int) -> Option<real>, power: (real, real) -> Option<real>)

  predicate HasPrefix(s: string, p: string) {
    |p| <= |s| && s[..|p|] == p
  }

  predicate IsIntegral(x: real) {
    x == x.Floor as real
  }

  /**
   * `b ** -x`. For an integral `x` the power is exact; a negative power of
   * zero is a division by zero. Other exponents are left to `num.power`.
   */
  function NegExp(code: string, b: real, x: real, num: Numerics): (r: Result<real, Fault>)
    ensures IsIntegral(x) && x >= 0.0 && b != 0.0 ==> r.Ok? && r.value * Pow(b, x.Floor) == 1.0
    ensures IsIntegral(x) && x > 0.0 && b == 0.0 ==> r == Err(MathDomain(code))
    ensures IsIntegral(x) && x <= 0.0 ==> r == Ok(Pow(b, -x.Floor))
    ensures !IsIntegral(x) ==> (r.Ok? <==> num.power(b, -x).Some?)
    ensures !IsIntegral(x) && r.Ok? ==> Some(r.value) == num.power(b, -x)
    ensures r.Err? ==> r.error == MathDomain(code)
  {
    if IsIntegral(x) then
      var e := -x.Floor;
      if b == 0.0 && e < 0 then Err(MathDomain(code)) else Ok(PowInt(b, e))
    else
      match num.power(b, -x)
      case None => Err(MathDomain(code))
      case Some(y) => Ok(y)
  }

  /**
   * Applies a transform code to a suggested value list:
   * `X<n>` multiplies element 0 by the integer n; `LOG<b>` replaces element
   * 0 by its logarithm in base b; `NEGEXP<b>` replaces the whole list by
   * the single element b to the power of minus element 0. Any other code,
   * or no code, leaves the list as it is. The source tests the three
   * prefixes with independent `if`s; as no code can start with two of
   * them, at most one applies, which the chain below makes explicit.
   */
  function ApplyTransform(code: Option<string>, v: seq<real>, num: Numerics): (r: Result<seq<real>, Fault>)
    ensures code.None? ==> r == Ok(v)
    ensures code == Some("") ==> r == Err(EmptyTransform)
    ensures (code.Some? && code.value != "" && !HasPrefix(code.value, "X") &&
             !HasPrefix(code.value, "LOG") && !HasPrefix(code.value, "NEGEXP")) ==> r == Ok(v)
    ensures code.Some? && HasPrefix(code.value, "X") && r.Ok? ==>
      |r.value| == |v| > 0 && r.value[1..] == v[1..] &&
      exists n: int :: ParseInt(code.value[1..]) == Some(n) && r.value[0] == v[0] * n as real
    ensures code.Some? && HasPrefix(code.value, "X") ==>
      (r.Ok? <==> ParseInt(code.value[1..]).Some? && |v| > 0)
    ensures code.Some? && ((HasPrefix(code.value, "X") && ParseInt(code.value[1..]).None?) ||
                           (HasPrefix(code.value, "LOG") && ParseInt(code.value[3..]).None?) ||
                           (HasPrefix(code.value, "NEGEXP") && ParseDecimal(code.value[6..]).None?)) ==>
      r == Err(BadTransformArgument(code.value))
    ensures code.Some? && |v| == 0 &&
            ((HasPrefix(code.value, "X") && ParseInt(code.value[1..]).Some?) ||
             (HasPrefix(code.value, "LOG") && ParseInt(code.value[3..]).Some?) ||
             (HasPrefix(code.value, "NEGEXP") && ParseDecimal(code.value[6..]).Some?)) ==>
      r == Err(EmptyValue)
    ensures (code.Some? && HasPrefix(code.value, "LOG") && |v| > 0 && ParseInt(code.value[3..]).Some? &&
             num.log(v[0], ParseInt(code.value[3..]).value).None?) ==>
      r == Err(MathDomain(code.value))
    ensures code.Some? && HasPrefix(code.value, "LOG") ==>
      (r.Ok? <==> ParseInt(code.value[3..]).Some? && |v| > 0 &&
                  num.log(v[0], ParseInt(code.value[3..]).value).Some?)
    ensures code.Some? && HasPrefix(code.value, "LOG") && r.Ok? ==>
      |r.value| == |v| > 0 && r.value[1..] == v[1..] &&
      Some(r.value[0]) == num.log(v[0], ParseInt(code.value[3..]).value)
    ensures code.Some? && HasPrefix(code.value, "NEGEXP") ==>
      (r.Ok? <==> ParseDecimal(code.value[6..]).Some? && |v| > 0 &&
                  NegExp(code.value, ParseDecimal(code.value[6..]).value, v[0], num).Ok?)
    ensures code.Some? && HasPrefix(code.value, "NEGEXP") && r.Ok? ==>
      r.value == [NegExp(code.value, ParseDecimal(code.value[6..]).value, v[0], num).value]
  {
    match code
    case None => Ok(v)
    case Some(t) =>
      if |t| == 0 then Err(EmptyTransform)
      else if t[0] == 'X' then Multiply(t, v)
      else if HasPrefix(t, "LOG") then Logarithm(t, v, num)
      else if HasPrefix(t, "NEGEXP") then NegativeExponent(t, v, num)
      else Ok(v)
  }

  /** `X<n>`: element 0 multiplied by the integer n. */
  function Multiply(t: string, v: seq<real>): (r: Result<seq<real>, Fault>)
    requires HasPrefix(t, "X")
    ensures ParseInt(t[1..]).None? ==> r == Err(BadTransformArgument(t))
    ensures ParseInt(t[1..]).Some? && |v| == 0 ==> r == Err(EmptyValue)
    ensures r.Ok? <==> ParseInt(t[1..]).Some? && |v| > 0
    ensures r.Ok? ==> |r.value| == |v| && r.value[1..] == v[1..] &&
                      r.value[0] == v[0] * ParseInt(t[1..]).value as real
  {
    match ParseInt(t[1..])
    case None => Err(BadTransformArgument(t))
    case Some(n) =>
      if |v| == 0 then Err(EmptyValue) else Ok(v[0 := v[0] * n as real])
  }

  /** `LOG<b>`: element 0 replaced by its logarithm in the integer base b. */
  function Logarithm(t: string, v: seq<real>, num: Numerics): (r: Result<seq<real>, Fault>)
    requires HasPrefix(t, "LOG")
    ensures ParseInt(t[3..]).None? ==> r == Err(BadTransformArgument(t))
    ensures ParseInt(t[3..]).Some? && |v| == 0 ==> r == Err(EmptyValue)
    ensures ParseInt(t[3..]).Some? && |v| > 0 && num.log(v[0], ParseInt(t[3..]).value).None? ==>
      r == Err(MathDomain(t))
    ensures r.Ok? <==> ParseInt(t[3..]).Some? && |v| > 0 && num.log(v[0], ParseInt(t[3..]).value).Some?
    ensures r.Ok? ==> |r.value| == |v| && r.value[1..] == v[1..] &&
                      Some(r.value[0]) == num.log(v[0], ParseInt(t[3..]).value)
  {
    match ParseInt(t[3..])
    case None => Err(BadTransformArgument(t))
    case Some(base) =>
      if |v| == 0 then Err(EmptyValue)
      else
        match num.log(v[0], base)
        case None => Err(MathDomain(t))
        case Some(y) => Ok(v[0 := y])
  }

  /** `NEGEXP<b>`: the whole list replaced by b to the power of minus element 0. */
  function NegativeExponent(t: string, v: seq<real>, num: Numerics): (r: Result<seq<real>, Fault>)
    requires HasPrefix(t, "NEGEXP")
    ensures ParseDecimal(t[6..]).None? ==> r == Err(BadTransformArgument(t))
    ensures ParseDecimal(t[6..]).Some? && |v| == 0 ==> r == Err(EmptyValue)
    ensures r.Ok? <==> ParseDecimal(t[6..]).Some? && |v| > 0 &&
                       NegExp(t, ParseDecimal(t[6..]).value, v[0], num).Ok?
    ensures r.Ok? ==> r.value == [NegExp(t, ParseDecimal(t[6..]).value, v[0], num).value]
  {
    match ParseDecimal(t[6..])
    case None => Err(BadTransformArgument(t))
    case Some(b) =>
      if |v| == 0 then Err(EmptyValue)
      else
        match NegExp(t, b, v[0], num)
        case Err(e) => Err(e)
        case Ok(y) => Ok([y])
  }

  /** `X<n>` multiplies element 0 by n and leaves the other elements alone. */
  lemma MultiplierTransform(n: int, v: seq<real>, num: Numerics)
    requires |v| > 0
    ensures ApplyTransform(Some("X" + IntText(n)), v, num) == Ok(v[0 := v[0] * n as real])
  {
    var t := "X" + IntText(n);
    ParseIntText(n);
    assert t[0] == 'X' && t[1..] == IntText(n);
    assert ParseInt(t[1..]) == Some(n);
    var r := ApplyTransform(Some(t), v, num);
    assert r.Ok?;
    assert r.value[0] == v[0] * n as real;
  }

  /**
   * `NEGEXP<b>` on an integral raw value k yields the single element
   * b to the power -k, the reciprocal of b to the power k.
   */
  lemma NegExpTransform(b: nat, k: int, v: seq<real>, num: Numerics)
    requires b > 0 && |v| > 0 && v[0] == k as real
    ensures ApplyTransform(Some("NEGEXP" + NatText(b)), v, num) == Ok([PowInt(b as real, -k)])
    ensures PowInt(b as real, -k) * PowInt(b as real, k) == 1.0
  {
    var t := "NEGEXP" + NatText(b);
    ParseNatText(b);
    assert t[6..] == NatText(b);
    assert t[0] == 'N' && HasPrefix(t, "NEGEXP") && !HasPrefix(t, "LOG");
    assert (k as real).Floor == k;
    PowIntReciprocal(b as real, -k);
  }

  /** The sample model's multiplier: `X50` on 6 gives 300. */
  lemma MultiplierExample(num: Numerics)
    ensures ApplyTransform(Some("X50"), [6.0], num) == Ok([300.0])
  {
    assert IntText(50) == "50";
    assert "X" + IntText(50) == "X50";
    MultiplierTransform(50, [6.0], num);
    assert [6.0][0 := 6.0 * 50 as real] == [300.0];
  }

  /** The sample model's learning-rate transform: `NEGEXP10` on 3 gives 0.001, on 1 gives 0.1. */
  lemma NegExpExample(num: Numerics)
    ensures ApplyTransform(Some("NEGEXP10"), [3.0], num) == Ok([0.001])
    ensures ApplyTransform(Some("NEGEXP10"), [1.0], num) == Ok([0.1])
  {
    assert NatText(10) == "10";
    NegExpTransform(10, 3, [3.0], num);
    NegExpTransform(10, 1, [1.0], num);
    assert Pow(10.0, 3) == 1000.0;
    assert Pow(10.0, 1) == 10.0;
  }
}

=== FILE: wrappers.dfy ===
/** Failure-compatible wrappers shared by every module of the model. */
module Wrappers {

  /** An optional value: Python's `None` versus a present value. */
  datatype Option<+T> = None | Some(value: T)

  /** The outcome of an operation that may abort the whole search. */
  datatype Result<+T, +E> = Ok(value: T) | Err(error: E)
}
